=== FILE: README.md ===
# Kettle engine pieces in Dafny

This project models four self-contained parts of the Pentaho Kettle
data-integration engine and proves properties of them.

- **Nested job runner** (`JobRunner`, `job_runner.dfy`). This is the one-shot
  runnable that a job entry uses to run a child job on its own thread. Its
  `run()` is a `try / catch (KettleException) / finally`. It is modelled as a
  pure function from the runner and an `Env` to a `RunOutcome`. The `Env`
  holds the stop flags of the job and its parent, and says for each foreign
  call whether it completes or throws. The outcome holds the new runner
  fields, the trace of calls made, the result the job holds, and any
  exception that escapes. The runner's result may be `null`, and `execute`
  may return `null`; the `NullPointerException` either handler then raises
  is modelled. A runner may be run more than once: `run()` only ever sets
  `finished` to true. `waitUntilFinished` is modelled by its loop over a
  finite sequence of polled observations.
- **Definition cache** (`MetaFileCache`, `meta_file_cache.dfy`). This is the
  map from normalized file keys (`.kjb` for jobs, `.ktr` for
  transformations) to entries with a use counter. It covers key
  normalization, `cacheMeta`, the two lookups, the entry counter and the
  lines written by the cache summary.
- **Informix SQL dialect** (`InformixDialect`, `informix_dialect.dfy`). This
  covers the column-type mapping of `getFieldDefinition` and the statements
  built on it. It also covers lock and unlock SQL, the default port,
  `getNotFoundTK`, the JDBC URL, the query and exists probes, and the
  unknown-dimension-row insert.
- **Excel cell** (`PoiCell`, `poi_cell.dfy`). This maps a POI cell (cell
  type, cached formula result type, date-format test) to the engine's cell
  type. It then covers the value `getValue` reads and the text
  `getContents` makes of it, including their error paths.

`JavaLang` (`java_lang.dfy`) holds the Java semantics these need: `null`
(`Nullable`), 32-bit `int` wrap-around, `Integer.toString` with a parser
that inverts it, `endsWith` / `startsWith`, and `equalsIgnoreCase` (as
ASCII case folding).

Most operations are paired with a partner definition and a lemma that
links the two:
- normalization with its idempotence;
- the column-type table with a parser that reads definitions back;
- the JDBC URL with a URL splitter;
- the column query (and so the table and column probes) and the
  unknown-row insert with parsers that read their names back;
- the lock loop with a recursive reference definition;
- the cache operations with the lookup-after-cache lemmas;
- the runner with its trace invariants.

The operations that return a fixed value (`getSQLUnlockTables`, the default
port, `getNotFoundTK`) are stated by that value alone.

Some of the code's behaviour is easy to misread. The model follows the
code:
- A failing finish hook sets the error count to 1. It does not add one
  more error, so a result that had 5 errors leaves with 1
  (`JobRunner.FinishFailureIsContained`).
- `waitUntilFinished` returns only when the runner has finished or the
  *job itself* is stopped. A stopped parent alone does not release it
  (`JobRunner.ParentStopAloneDoesNotRelease`).
- After an error in the nested run, the runner reaches `finished` only if
  the error was a `KettleException` and the result is not `null`. Any
  other exception escapes `run()` and leaves `finished` as it was
  (`JobRunner.OtherExceptionEscapes`).
- A stopped job, or a job whose parent is stopped, takes the early return.
  That path still runs the `finally` block, finish hooks included, but
  never sets `finished` (`JobRunner.EarlyReturnStillRunsFinally`,
  `JobRunner.FinishHooksAttempted`).
- Only the constructor sets `finished` to false. A runner that finished
  once stays finished when it is run again, whatever path the later run
  takes (`JobRunner.Run`).
- With a `null` result, a failing finish hook is not contained. The
  handler's `result.setNrErrors(1)` throws a `NullPointerException`, which
  skips `job.setFinished(true)` and escapes
  (`JobRunner.FinishFailureIsContained`).

The Informix field definition starts with `name + " "` whenever the name is
requested. The converse does not hold. A DATE field named `DATETIME`,
written without its name, gives `DATETIME YEAR to FRACTION`, which also
starts with `DATETIME `. So the model states the one direction, plus a
round trip (`FieldDefinitionRoundTrip`). The round trip shows that the
column type can always be read back once you know how the definition was
requested.

A cache key that already ends with its suffix is stored unchanged. So
`a.kjb` and `a.kjb.kjb` are different keys. A lookup with "the key plus the
suffix" finds the cached entry only when the key did not end with the
suffix already (`MetaFileCache.NormalizeSuffixedKey`, both directions).

## Model

| member | source | states |
|---|---|---|
| JavaLang.IntToStringRoundTrip | core/src/main/java/org/pentaho/di/core/database/InformixDatabaseMeta.java:196-198 | the decimal text that string concatenation makes of an `int` parses back to the same number, so a VARCHAR size is never garbled |
| JavaLang.EqualsIgnoreCaseIsLowerEquality | core/src/main/java/org/pentaho/di/core/database/InformixDatabaseMeta.java:174-176 | the character-wise `equalsIgnoreCase` test used for the key columns holds exactly when the lower-cased names are equal |
| JobRunner.NewRunner | engine/src/main/java/org/pentaho/di/job/entries/job/JobEntryJobRunner.java:40-46 | a new runner is not finished and holds the job, result (possibly `null`), entry number and log it was given |
| JobRunner.MarkFailed | engine/src/main/java/org/pentaho/di/job/entries/job/JobEntryJobRunner.java:64-65 | both handlers leave the result unsuccessful with error count exactly 1, whatever it was, and touch nothing else |
| JobRunner.FirstThrow | engine/src/main/java/org/pentaho/di/job/entries/job/JobEntryJobRunner.java:69-80 | the finish steps run in order until the first that throws; every earlier step completed |
| JobRunner.Run | engine/src/main/java/org/pentaho/di/job/entries/job/JobEntryJobRunner.java:45-84 | a runner that was finished stays finished: `run()` never sets the flag back to false. The result the job holds after the run is the runner's final result, since the job stores that object by reference. Job, entry number and log are unchanged |
| JobRunner.SetResultOnceBeforeFinishHooks | engine/src/main/java/org/pentaho/di/job/entries/job/JobEntryJobRunner.java:66-83 | on every path `job.setResult` is called exactly once. No start hook or execute follows it, and no finish hook precedes it. The last call is `job.setFinished(true)` exactly when the result handed over is not `null` or no finish hook fails. Otherwise a `NullPointerException` escapes instead |
| JobRunner.EarlyReturnStillRunsFinally | engine/src/main/java/org/pentaho/di/job/entries/job/JobEntryJobRunner.java:48-83 | a stopped job or parent means no start hook or execute call. The job still gets the incoming result first, and `finished` keeps its earlier value. The JobFinish extension point is still called exactly once. With a result, nothing escapes, the job is marked finished last, and the result is marked failed exactly when a finish hook throws. With a `null` result, something escapes exactly when a finish hook fails, and it is a `NullPointerException` |
| JobRunner.StartStepsAttempted | engine/src/main/java/org/pentaho/di/job/entries/job/JobEntryJobRunner.java:49-60 | the JobStart extension point is called exactly when no stop was requested. The start listeners fire exactly when it also returned. `execute` is called exactly once when both returned and never otherwise, and only ever with `entryNr + 1` (32-bit wrap) and the runner's result |
| JobRunner.FinishHooksAttempted | engine/src/main/java/org/pentaho/di/job/entries/job/JobEntryJobRunner.java:66-81 | on every path, including the early return and an escaping exception, the JobFinish extension point is called exactly once. The embedded metastore is disposed exactly when that call returned. The finish listeners fire exactly when both returned |
| JobRunner.FinishHooksFollowSetResult | engine/src/main/java/org/pentaho/di/job/entries/job/JobEntryJobRunner.java:66-80 | right after the try block's calls comes `job.setResult` with the try block's result. Then come the finish hooks in source order, up to and including the first that throws |
| JobRunner.NormalPathOrder | engine/src/main/java/org/pentaho/di/job/entries/job/JobEntryJobRunner.java:57-60 | the JobStart extension point runs, then the start listeners, then exactly one `execute(entryNr + 1, result)` (32-bit wrap) |
| JobRunner.ExecuteResultIsHandedOver | engine/src/main/java/org/pentaho/di/job/entries/job/JobEntryJobRunner.java:57-83 | what execute returns is handed to the job, and it stays the runner's result when no finish hook fails. The runner finishes unless execute returned `null` and a finish hook failed. Then a `NullPointerException` escapes and `finished` is unchanged |
| JobRunner.KettleExceptionBecomesFailure | engine/src/main/java/org/pentaho/di/job/entries/job/JobEntryJobRunner.java:61-65 | a KettleException from a start hook or execute is not rethrown when there is a result. The job gets the incoming result marked failed with error count exactly 1, and the runner finishes. With a `null` result the handler itself throws a `NullPointerException`, which escapes and leaves `finished` as it was |
| JobRunner.OtherExceptionEscapes | engine/src/main/java/org/pentaho/di/job/entries/job/JobEntryJobRunner.java:48-84 | any other exception escapes after the finally block, and `finished` keeps its earlier value. No handler marks the result failed for it: the runner and the job end with the incoming result unchanged, or marked failed exactly when a finish hook throws (a `null` stays `null`). It is the original exception, with the job marked finished, unless a finish hook failed on a `null` result. In that case the handler's `NullPointerException` replaces it |
| JobRunner.FinishFailureIsContained | engine/src/main/java/org/pentaho/di/job/entries/job/JobEntryJobRunner.java:69-81 | the first failing finish step skips the rest. With a result handed over, it sets the error count to 1 and never propagates. The job is still marked finished, and `finished` is set exactly when it already was or the try block ended normally. With a `null` result the handler throws: `setFinished` is skipped, a `NullPointerException` escapes, and `finished` is unchanged |
| JobRunner.FinishedExactlyWhenNotStoppedAndNothingEscaped | engine/src/main/java/org/pentaho/di/job/entries/job/JobEntryJobRunner.java:48-84 | `finished` is true afterwards exactly when it already was, or there was no early return and nothing escaped. A KettleException never escapes. While the result is never `null`, an exception escapes exactly when a start hook or execute threw a non-Kettle one |
| JobRunner.WaitUntilFinished | engine/src/main/java/org/pentaho/di/job/entries/job/JobEntryJobRunner.java:149-157 | the wait ends at the first poll where the runner is finished or the job is stopped, and at no earlier poll |
| JobRunner.ParentStopAloneDoesNotRelease | engine/src/main/java/org/pentaho/di/job/entries/job/JobEntryJobRunner.java:48-157 | a parent-only stop leaves `finished` as it was. For a runner not yet finished, that does not meet the wait's exit condition |
| MetaFileCache.Normalize | engine/src/main/java/org/pentaho/di/base/MetaFileCacheImpl.java:38 | a normalized key ends with the kind's suffix and starts with the key. A key that already ends with the suffix is kept as is |
| MetaFileCache.NormalizeIdempotent | engine/src/main/java/org/pentaho/di/base/MetaFileCacheImpl.java:43 | normalizing twice is normalizing once |
| MetaFileCache.NormalizeSuffixedKey | engine/src/main/java/org/pentaho/di/base/MetaFileCacheImpl.java:48 | a key and the key plus the suffix normalize alike exactly when the key does not already end with the suffix |
| MetaFileCache.JobAndTransKeysDisjoint | engine/src/main/java/org/pentaho/di/base/MetaFileCacheImpl.java:34-35 | no normalized job key equals a normalized transformation key |
| MetaFileCache.NewEntry | engine/src/main/java/org/pentaho/di/base/MetaFileCacheImpl.java:78-87 | a new entry stores the key normalized for its definition's kind and the definition, with a counter of 0 |
| MetaFileCache.CacheMeta | engine/src/main/java/org/pentaho/di/base/MetaFileCacheImpl.java:47-55 | caching adds or replaces exactly the normalized key with counter 0 and leaves every other entry. It keeps every entry under its own key with the right suffix |
| MetaFileCache.GetCached | engine/src/main/java/org/pentaho/di/base/MetaFileCacheImpl.java:37-45 | a missing key gives null and changes nothing. A present key bumps only that entry's counter (as a Java `int`). In a consistent cache the downcast never fails and yields the stored definition of the requested kind |
| MetaFileCache.CachedDefinitionIsFound | engine/src/main/java/org/pentaho/di/base/MetaFileCacheImpl.java:37-55 | after caching, a lookup with the key finds the definition and counts one use. So does a lookup with the key plus the suffix, when the key lacked it |
| MetaFileCache.RecacheResetsCounter | engine/src/main/java/org/pentaho/di/base/MetaFileCacheImpl.java:47-55 | caching again under the same normalized key replaces the definition and resets the counter to 0 |
| MetaFileCache.NoCrossKindLookup | engine/src/main/java/org/pentaho/di/base/MetaFileCacheImpl.java:37-55 | a job and a transformation cached under the same key are each found only by their own kind of lookup |
| MetaFileCache.LookupsAreCounted | engine/src/main/java/org/pentaho/di/base/MetaFileCacheImpl.java:89-90 | n lookups of a present key add exactly n to its counter (below the `int` limit) and leave every other entry unchanged |
| MetaFileCache.LogCacheSummary | engine/src/main/java/org/pentaho/di/base/MetaFileCacheImpl.java:57-69 | an empty cache writes nothing. Otherwise it writes a header, then one line per entry with its key and use count, each entry exactly once in the map's iteration order |
| InformixDialect.Classify | core/src/main/java/org/pentaho/di/core/database/InformixDatabaseMeta.java:156-211 | TIMESTAMP maps to DATETIME and DATE to DATETIME YEAR to FRACTION. BOOLEAN maps to BOOLEAN or CHAR(1) by dialect support. A numeric key maps to SERIAL8 or INTEGER PRIMARY KEY. Any other numeric is FLOAT iff `(len<0 && prec<0) \|\| prec>0 \|\| len>9`, else INTEGER. A string maps to CLOB, VARCHAR[(len)], LVARCHAR or TEXT over its length ranges. Every other type is UNKNOWN |
| InformixDialect.KeyColumnIgnoresSize | core/src/main/java/org/pentaho/di/core/database/InformixDatabaseMeta.java:171-181 | a numeric technical or primary key column gets the same type whatever its length and precision |
| InformixDialect.FieldDefinition | core/src/main/java/org/pentaho/di/core/database/InformixDatabaseMeta.java:143-218 | the definition starts with `name ` when the name is requested and ends with the line separator when CR is requested. With neither, it is the column type alone |
| InformixDialect.TypeNameRoundTrip | core/src/main/java/org/pentaho/di/core/database/InformixDatabaseMeta.java:157-210 | every type text the dialect writes, `VARCHAR(n)` included, reads back as that type, so no two types are written alike |
| InformixDialect.FieldDefinitionRoundTrip | core/src/main/java/org/pentaho/di/core/database/InformixDatabaseMeta.java:143-218 | stripping the requested name prefix and separator suffix from a field definition leaves exactly the chosen column type |
| InformixDialect.AddColumnStatement | core/src/main/java/org/pentaho/di/core/database/InformixDatabaseMeta.java:114-118 | the statement is `ALTER TABLE t ADD `, then the field name, a space and the chosen column type |
| InformixDialect.ModifyColumnStatement | core/src/main/java/org/pentaho/di/core/database/InformixDatabaseMeta.java:137-141 | the statement is `ALTER TABLE t MODIFY `, then the field name, a space and the chosen column type |
| InformixDialect.AlterStatementsIgnoreSemicolon | core/src/main/java/org/pentaho/di/core/database/InformixDatabaseMeta.java:114-141 | the `semicolon` flag changes neither statement. Add and modify differ only in the verb before the same field definition, which has the name and no line separator |
| InformixDialect.LockStatementsAppend | core/src/main/java/org/pentaho/di/core/database/InformixDatabaseMeta.java:220-227 | the lock SQL of two lists of tables is the lock SQL of the first followed by that of the second |
| InformixDialect.LockTables | core/src/main/java/org/pentaho/di/core/database/InformixDatabaseMeta.java:220-227 | the loop builds one `LOCK TABLE n IN EXCLUSIVE MODE;` plus separator per table, in order. No tables gives the empty string |
| InformixDialect.UnlockTables | core/src/main/java/org/pentaho/di/core/database/InformixDatabaseMeta.java:229-236 | unlock SQL is always null |
| InformixDialect.DefaultDatabasePort | core/src/main/java/org/pentaho/di/core/database/InformixDatabaseMeta.java:28-39 | the port is positive exactly for native access, where it is 1526 and native access is among the listed access types. Otherwise it is -1 |
| InformixDialect.NotFoundTK | core/src/main/java/org/pentaho/di/core/database/InformixDatabaseMeta.java:44-50 | the not-found key is 1 when auto-increment is supported and requested. Otherwise it is the inherited value |
| InformixDialect.UrlRoundTrip | core/src/main/java/org/pentaho/di/core/database/InformixDatabaseMeta.java:57-61 | the `jdbc:informix-sqli` URL splits back into host, port, database and server whenever the host and database contain no `:` and the port contains no `/` |
| InformixDialect.QueryFields | core/src/main/java/org/pentaho/di/core/database/InformixDatabaseMeta.java:78-81 | the field query is the column query for the column `*`, and it reads back as column `*` of the table |
| InformixDialect.QueryColumnFields | core/src/main/java/org/pentaho/di/core/database/InformixDatabaseMeta.java:93-95 | the column query is exactly `SELECT FIRST 1 `, then the column name, then ` FROM ` and the table |
| InformixDialect.ColumnQueryRoundTrip | core/src/main/java/org/pentaho/di/core/database/InformixDatabaseMeta.java:93-95 | a column name without spaces and the table are read back out of the column query by an independent parser |
| InformixDialect.TableExists | core/src/main/java/org/pentaho/di/core/database/InformixDatabaseMeta.java:83-86 | the table probe is exactly `SELECT FIRST 1 * FROM ` followed by the table, and it reads back as column `*` of that table |
| InformixDialect.ColumnExists | core/src/main/java/org/pentaho/di/core/database/InformixDatabaseMeta.java:88-91 | the column probe is exactly `SELECT FIRST 1 `, then the column, then ` FROM ` and the table. A column without spaces and its table read back out of it |
| InformixDialect.InsertUnknownDimensionRow | core/src/main/java/org/pentaho/di/core/database/InformixDatabaseMeta.java:254-257 | the insert is exactly `insert into `, then the table, `(`, the key field, `, `, the version field, and `) values (1, 1)` |
| InformixDialect.UnknownRowInsertRoundTrip | core/src/main/java/org/pentaho/di/core/database/InformixDatabaseMeta.java:254-257 | the table, key field and version field are read back out of the insert by an independent parser, when the table holds no `(` and the key field no `,` |
| InformixDialect.UnknownRowUsesNotFoundKey | core/src/main/java/org/pentaho/di/core/database/InformixDatabaseMeta.java:44-50 | with auto-increment supported, the key the unknown row is inserted with is the dialect's not-found key |
| PoiCell.GetType | plugins/excel/core/src/main/java/org/pentaho/di/trans/steps/excelinput/poi/PoiCell.java:34-65 | each engine type comes from exactly the stated POI inputs. Examples: BOOLEAN from a boolean cell, DATE from a date-formatted numeric cell, EMPTY from a blank, error or error-formula cell. A null type comes exactly from a `_NONE` cell or a formula whose cached type is `_NONE`, FORMULA or BLANK |
| PoiCell.GetValue | plugins/excel/core/src/main/java/org/pentaho/di/trans/steps/excelinput/poi/PoiCell.java:67-95 | the value kind follows the type: Boolean, offset date, number or string. Null comes exactly for EMPTY. A null type or a throwing accessor fails with the cell's wrapped message and never gives null |
| PoiCell.GetContents | plugins/excel/core/src/main/java/org/pentaho/di/trans/steps/excelinput/poi/PoiCell.java:97-108 | null exactly when the value is null, otherwise the value's text. A value failure is wrapped a second time with the contents message |
| PoiCell.TextCellContentsAreItsString | plugins/excel/core/src/main/java/org/pentaho/di/trans/steps/excelinput/poi/PoiCell.java:84-86 | the contents of a string or string-formula cell are its string |
| PoiCell.BlankFormulaFailsToRead | plugins/excel/core/src/main/java/org/pentaho/di/trans/steps/excelinput/poi/PoiCell.java:48-94 | a formula with a cached BLANK result has no type. Reading its value or contents fails instead of giving null |

## Left out

- Threads and timing: the runner's thread, the `Thread.sleep` polling, and any stop flag changing while `run()` is running. The stop flags are read once, as inputs, and `waitUntilFinished` is a loop over a finite sequence of polls.
- Foreign calls are modelled only as "completes or throws". This covers what the extension points, listeners, `execute` and metastore disposal do inside, and the logging and `printStackTrace` calls. A `java.lang.Error` thrown from a finish hook is not modelled.
- `JobRunner.Run`: models `Result` as a value. The job's reference to the runner's result is modelled (the job holds the final value). The caller's reference is not: whenever a handler marks the runner's result failed while it is still the caller's object (the KettleException handler, or the finish-hook handler on the early-return and non-Kettle paths), Java also marks the caller's incoming object failed, and the model does not state this.
- A `null` job, parent-less `getJobMeta()` or `null` log channel is not modelled; the job and log are opaque non-null references. A `NullPointerException` from `getJobMeta()` inside the finish block is caught there like any finish-hook failure, so it is covered by the hook's "throws" outcome.
- Runner getters and setters (`getResult`, `setJob`, `isFinished` and the others) only read or write a field, and they are the fields of `JobRunner.Runner`.
- Cache: the deep copy made by `realClone` (the copy is taken to be equal to the original), the created and last-accessed timestamps, `ConcurrentHashMap` concurrency, and the text of the log messages `getMeta` writes. `logCacheSummary`'s fallback to the cache's own logger when given `null` only picks the log target, so it is left out.
- Informix: the constants and settings that live in classes not modelled here are parameters (`Settings`). These are the access type, boolean and auto-increment support, the server name, the inherited not-found key, the CLOB threshold and the platform line separator. A `null` field name or table name is not modelled: Java prints `null` in the name prefix and the statement text, but throws a `NullPointerException` at the key-field test for a numeric (NUMBER, INTEGER, BIGNUMBER) field. `equalsIgnoreCase` folds ASCII letters only.
- Informix operations that only return a constant are left out: `getDriverClass`, `getUsedLibraries`, `needsPlaceHolder` and `needsToLockAllTables`. The access type list appears only as the set the native default port belongs to.
- InformixDialect.ParseColumnQuery and InformixDialect.ParseUnknownRowInsert read names back only when the column holds no space, the table of the insert no `(` and its key field no `,`; SQL text built from other names is ambiguous, so the round trips are stated on that domain.
- PoiCell: numbers are kept as opaque reals. The text of numbers and dates is a rendering function passed in. The date offset is a plain addition of the given zone offset, without `long` overflow. `getRow` is a plain accessor and is left out.
- `PoiWorkbook`, `CompressionOutputStream`, the data holders and interfaces, and the engine runtime (row sets, step threads, graph walkers) are not part of this model.

=== FILE: informix_dialect.dfy ===
/**
 * The Informix SQL dialect: column type mapping for DDL, the ALTER TABLE
 * statements built from it, table locking, the JDBC URL, and a handful of
 * fixed query templates.
 *
 * What the dialect inherits from its base classes (access type, whether the
 * database supports booleans and auto-increment, the server name, the
 * inherited not-found key, the CLOB threshold and the platform line
 * separator) arrives as a `Settings` value.
 */
module InformixDialect {
  import opened JavaLang

  /** A row-metadata value type; `OtherType` is any type code the dialect does not map. */
  datatype ValueType =
    | TypeNumber | TypeString | TypeDate | TypeBoolean | TypeInteger | TypeBigNumber | TypeTimestamp
    | OtherType(code: int)

  /** The column description the dialect reads: name, type, length and precision. */
  datatype ValueMeta = ValueMeta(name: string, vtype: ValueType, length: Int32, precision: Int32)

  datatype AccessType = Native | Odbc | Oci | Plugin | Jndi

  datatype Settings = Settings(
    accessType: AccessType,
    supportsBooleanDataType: bool,
    supportsAutoInc: bool,
    servername: string,
    inheritedNotFoundTK: int,
    clobLength: int,
    cr: string)

  /** The Informix column types the dialect can emit. */
  datatype ColumnType =
    | DateTime | DateTimeYearToFraction
    | BooleanColumn | Char1
    | Serial8 | IntegerPrimaryKey | FloatColumn | IntegerColumn
    | Clob | Varchar | VarcharSized(size: int) | LVarchar | Text
    | Unknown

  /** `getAccessTypeList`: the access types the dialect offers. */
  const ACCESS_TYPES: seq<AccessType> := [Native, Jndi]
  const NATIVE_PORT: int := 1526

  // ---------------------------------------------------------------------
  // Column types
  // ---------------------------------------------------------------------

  predicate IsNumeric(t: ValueType) {
    t == TypeNumber || t == TypeInteger || t == TypeBigNumber
  }

  /** The field is the technical key or the primary key (compared ignoring case). */
  predicate IsKeyField(v: ValueMeta, tk: Nullable<string>, pk: Nullable<string>) {
    EqualsIgnoreCase(v.name, tk) || EqualsIgnoreCase(v.name, pk)
  }

  /** The Informix column type chosen for a value. */
  function Classify(s: Settings, v: ValueMeta, tk: Nullable<string>, pk: Nullable<string>, useAutoinc: bool): (t: ColumnType)
    ensures v.vtype == TypeTimestamp <==> t == DateTime
    ensures v.vtype == TypeDate <==> t == DateTimeYearToFraction
    ensures v.vtype == TypeBoolean <==> t == BooleanColumn || t == Char1
    ensures v.vtype == TypeBoolean ==> (t == BooleanColumn <==> s.supportsBooleanDataType)
    ensures IsNumeric(v.vtype) <==> t in {Serial8, IntegerPrimaryKey, FloatColumn, IntegerColumn}
    ensures IsNumeric(v.vtype) && IsKeyField(v, tk, pk) ==> t == (if useAutoinc then Serial8 else IntegerPrimaryKey)
    ensures IsNumeric(v.vtype) && !IsKeyField(v, tk, pk) ==>
      (t == FloatColumn <==> (v.length < 0 && v.precision < 0) || v.precision > 0 || v.length > 9)
    ensures v.vtype == TypeString <==> t.Clob? || t.Varchar? || t.VarcharSized? || t.LVarchar? || t.Text?
    ensures v.vtype == TypeString ==>
      && (t == Clob <==> v.length >= s.clobLength)
      && (t.Varchar? <==> v.length < s.clobLength && v.length <= 0)
      && (t.VarcharSized? <==> v.length < s.clobLength && 0 < v.length < 256)
      && (t.VarcharSized? ==> t.size == v.length)
      && (t == LVarchar <==> v.length < s.clobLength && 256 <= v.length < 32768)
      && (t == Text <==> v.length < s.clobLength && 32768 <= v.length)
    ensures v.vtype.OtherType? <==> t == Unknown
  {
    match v.vtype
    case TypeTimestamp => DateTime
    case TypeDate => DateTimeYearToFraction
    case TypeBoolean => if s.supportsBooleanDataType then BooleanColumn else Char1
    case TypeNumber => NumericColumn(v, tk, pk, useAutoinc)
    case TypeInteger => NumericColumn(v, tk, pk, useAutoinc)
    case TypeBigNumber => NumericColumn(v, tk, pk, useAutoinc)
    case TypeString =>
      if v.length >= s.clobLength then Clob
      else if v.length < 256 then (if v.length > 0 then VarcharSized(v.length) else Varchar)
      else if v.length < 32768 then LVarchar
      else Text
    case OtherType(_) => Unknown
  }

  function NumericColumn(v: ValueMeta, tk: Nullable<string>, pk: Nullable<string>, useAutoinc: bool): ColumnType {
    if IsKeyField(v, tk, pk) then
      (if useAutoinc then Serial8 else IntegerPrimaryKey)
    else if (v.length < 0 && v.precision < 0) || v.precision > 0 || v.length > 9 then FloatColumn
    else IntegerColumn
  }

  /** A key column's type does not depend on the declared length or precision. */
  lemma KeyColumnIgnoresSize(s: Settings, v: ValueMeta, tk: Nullable<string>, pk: Nullable<string>,
                             useAutoinc: bool, length: Int32, precision: Int32)
    requires IsNumeric(v.vtype) && IsKeyField(v, tk, pk)
    ensures Classify(s, v.(length := length, precision := precision), tk, pk, useAutoinc)
         == Classify(s, v, tk, pk, useAutoinc)
  {
  }

  /** How a column type is written in DDL. */
  function TypeName(t: ColumnType): string {
    match t
    case DateTime => "DATETIME"
    case DateTimeYearToFraction => "DATETIME YEAR to FRACTION"
    case BooleanColumn => "BOOLEAN"
    case Char1 => "CHAR(1)"
    case Serial8 => "SERIAL8"
    case IntegerPrimaryKey => "INTEGER PRIMARY KEY"
    case FloatColumn => "FLOAT"
    case IntegerColumn => "INTEGER"
    case Clob => "CLOB"
    case Varchar => "VARCHAR"
    case VarcharSized(size) => "VARCHAR(" + IntToString(size) + ")"
    case LVarchar => "LVARCHAR"
    case Text => "TEXT"
    case Unknown => " UNKNOWN"
  }

  /** `getFieldDefinition`: optional `name `, the type, optional line separator. */
  function FieldDefinition(s: Settings, v: ValueMeta, tk: Nullable<string>, pk: Nullable<string>,
                           useAutoinc: bool, addFieldName: bool, addCr: bool): (r: string)
    ensures addFieldName ==> StartsWith(r, v.name + " ")
    ensures addCr ==> EndsWith(r, s.cr)
    ensures !addFieldName && !addCr ==> r == TypeName(Classify(s, v, tk, pk, useAutoinc))
  {
    var prefix := if addFieldName then v.name + " " else "";
    var suffix := if addCr then s.cr else "";
    var r := prefix + TypeName(Classify(s, v, tk, pk, useAutoinc)) + suffix;
    assert r == prefix + (TypeName(Classify(s, v, tk, pk, useAutoinc)) + suffix);
    StartsWithAppend(prefix, TypeName(Classify(s, v, tk, pk, useAutoinc)) + suffix);
    EndsWithAppend(prefix + TypeName(Classify(s, v, tk, pk, useAutoinc)), suffix);
    r
  }

  // ---------------------------------------------------------------------
  // Reading a column type back
  // ---------------------------------------------------------------------

  const VARCHAR_OPEN: string := "VARCHAR("

  /** Inverse of `TypeName`. */
  function ParseTypeName(str: string): Nullable<ColumnType> {
    if str == "DATETIME" then NonNull(DateTime)
    else if str == "DATETIME YEAR to FRACTION" then NonNull(DateTimeYearToFraction)
    else if str == "BOOLEAN" then NonNull(BooleanColumn)
    else if str == "CHAR(1)" then NonNull(Char1)
    else if str == "SERIAL8" then NonNull(Serial8)
    else if str == "INTEGER PRIMARY KEY" then NonNull(IntegerPrimaryKey)
    else if str == "FLOAT" then NonNull(FloatColumn)
    else if str == "INTEGER" then NonNull(IntegerColumn)
    else if str == "CLOB" then NonNull(Clob)
    else if str == "VARCHAR" then NonNull(Varchar)
    else if str == "LVARCHAR" then NonNull(LVarchar)
    else if str == "TEXT" then NonNull(Text)
    else if str == " UNKNOWN" then NonNull(Unknown)
    else if |str| > |VARCHAR_OPEN| && StartsWith(str, VARCHAR_OPEN) && str[|str| - 1] == ')' then
      match ParseInt(str[|VARCHAR_OPEN|..|str| - 1])
      case NonNull(n) => NonNull(VarcharSized(n))
      case Null => Null
    else Null
  }

  /** Types written by the dialect read back as themselves, so distinct types never print alike. */
  lemma TypeNameRoundTrip(t: ColumnType)
    ensures ParseTypeName(TypeName(t)) == NonNull(t)
  {
    if t.VarcharSized? {
      var digits := IntToString(t.size);
      var str := TypeName(t);
      assert str == VARCHAR_OPEN + digits + ")";
      assert str[|VARCHAR_OPEN|..|str| - 1] == digits;
      assert str[..|VARCHAR_OPEN|] == VARCHAR_OPEN;
      assert str[7] == '(';
      IntToStringRoundTrip(t.size);
    }
  }

  /**
   * Reads a field definition back, given how it was requested: strips the
   * name prefix and the separator suffix and parses the type in between.
   */
  function ParseFieldDefinition(r: string, name: string, addFieldName: bool, cr: string, addCr: bool): Nullable<ColumnType> {
    var prefix := if addFieldName then name + " " else "";
    var suffix := if addCr then cr else "";
    if |prefix| + |suffix| <= |r| && StartsWith(r, prefix) && EndsWith(r, suffix) then
      ParseTypeName(r[|prefix|..|r| - |suffix|])
    else Null
  }

  /** The column type chosen for a field is recoverable from its definition. */
  lemma FieldDefinitionRoundTrip(s: Settings, v: ValueMeta, tk: Nullable<string>, pk: Nullable<string>,
                                 useAutoinc: bool, addFieldName: bool, addCr: bool)
    ensures ParseFieldDefinition(FieldDefinition(s, v, tk, pk, useAutoinc, addFieldName, addCr), v.name, addFieldName, s.cr, addCr)
         == NonNull(Classify(s, v, tk, pk, useAutoinc))
  {
    var prefix := if addFieldName then v.name + " " else "";
    var suffix := if addCr then s.cr else "";
    var body := TypeName(Classify(s, v, tk, pk, useAutoinc));
    var r := FieldDefinition(s, v, tk, pk, useAutoinc, addFieldName, addCr);
    assert r == prefix + body + suffix;
    assert r[|prefix|..|r| - |suffix|] == body;
    TypeNameRoundTrip(Classify(s, v, tk, pk, useAutoinc));
  }

  // ---------------------------------------------------------------------
  // ALTER TABLE
  // ---------------------------------------------------------------------

  /** `getAddColumnStatement`; `semicolon` is accepted and ignored. */
  function AddColumnStatement(s: Settings, tablename: string, v: ValueMeta, tk: Nullable<string>,
                              useAutoinc: bool, pk: Nullable<string>, semicolon: bool): (r: string)
    ensures r == "ALTER TABLE " + tablename + " ADD " + v.name + " " + TypeName(Classify(s, v, tk, pk, useAutoinc))
  {
    "ALTER TABLE " + tablename + " ADD " + FieldDefinition(s, v, tk, pk, useAutoinc, true, false)
  }

  /** `getModifyColumnStatement`; `semicolon` is accepted and ignored. */
  function ModifyColumnStatement(s: Settings, tablename: string, v: ValueMeta, tk: Nullable<string>,
                                 useAutoinc: bool, pk: Nullable<string>, semicolon: bool): (r: string)
    ensures r == "ALTER TABLE " + tablename + " MODIFY " + v.name + " " + TypeName(Classify(s, v, tk, pk, useAutoinc))
  {
    "ALTER TABLE " + tablename + " MODIFY " + FieldDefinition(s, v, tk, pk, useAutoinc, true, false)
  }

  /**
   * The `semicolon` flag changes neither statement, and the two statements
   * share the same field definition (with the name, without the line
   * separator), differing only in the verb.
   */
  lemma AlterStatementsIgnoreSemicolon(s: Settings, tablename: string, v: ValueMeta, tk: Nullable<string>,
                                       useAutoinc: bool, pk: Nullable<string>)
    ensures AddColumnStatement(s, tablename, v, tk, useAutoinc, pk, true)
         == AddColumnStatement(s, tablename, v, tk, useAutoinc, pk, false)
    ensures ModifyColumnStatement(s, tablename, v, tk, useAutoinc, pk, true)
         == ModifyColumnStatement(s, tablename, v, tk, useAutoinc, pk, false)
    ensures var tail := FieldDefinition(s, v, tk, pk, useAutoinc, true, false);
      && AddColumnStatement(s, tablename, v, tk, useAutoinc, pk, true) == "ALTER TABLE " + tablename + " ADD " + tail
      && ModifyColumnStatement(s, tablename, v, tk, useAutoinc, pk, true) == "ALTER TABLE " + tablename + " MODIFY " + tail
  {
  }

  // ---------------------------------------------------------------------
  // Locking
  // ---------------------------------------------------------------------

  function LockStatement(table: string, cr: string): string {
    "LOCK TABLE " + table + " IN EXCLUSIVE MODE;" + cr
  }

  /** The lock statements of `tables`, in order, each followed by the separator. */
  function LockStatements(tables: seq<string>, cr: string): string
    decreases |tables|
  {
    if |tables| == 0 then "" else LockStatements(tables[..|tables| - 1], cr) + LockStatement(tables[|tables| - 1], cr)
  }

  lemma {:induction false} LockStatementsAppend(a: seq<string>, b: seq<string>, cr: string)
    ensures LockStatements(a + b, cr) == LockStatements(a, cr) + LockStatements(b, cr)
    decreases |b|
  {
    if |b| == 0 {
      assert a + b == a;
    } else {
      assert (a + b)[..|a + b| - 1] == a + b[..|b| - 1];
      LockStatementsAppend(a, b[..|b| - 1], cr);
    }
  }

  /** `getSQLLockTables`: the loop appending one statement per table. */
  method LockTables(tableNames: seq<string>, cr: string) returns (sql: string)
    ensures sql == LockStatements(tableNames, cr)
    ensures |tableNames| == 0 ==> sql == ""
    ensures 0 < |tableNames| ==> StartsWith(sql, LockStatement(tableNames[0], cr))
  {
    sql := "";
    var i := 0;
    while i < |tableNames|
      invariant 0 <= i <= |tableNames|
      invariant sql == LockStatements(tableNames[..i], cr)
    {
      assert tableNames[..i + 1][..i] == tableNames[..i];
      sql := sql + LockStatement(tableNames[i], cr);
      i := i + 1;
    }
    assert tableNames[..i] == tableNames;
    if 0 < |tableNames| {
      assert tableNames == [tableNames[0]] + tableNames[1..];
      LockStatementsAppend([tableNames[0]], tableNames[1..], cr);
      assert LockStatements([tableNames[0]], cr) == LockStatement(tableNames[0], cr);
      StartsWithAppend(LockStatement(tableNames[0], cr), LockStatements(tableNames[1..], cr));
    }
  }

  /** `getSQLUnlockTables`: always `null`; the dialect builds no unlock statement (its loop is commented out). */
  function UnlockTables(tableNames: seq<string>): (r: Nullable<string>)
    ensures r == Null
  {
    Null
  }

  // ---------------------------------------------------------------------
  // Connection
  // ---------------------------------------------------------------------

  /** `getDefaultDatabasePort`: 1526 for native access, -1 (no default) otherwise. */
  function DefaultDatabasePort(s: Settings): (port: int)
    ensures port > 0 <==> s.accessType == Native
    ensures port > 0 ==> port == NATIVE_PORT && s.accessType in ACCESS_TYPES
    ensures port <= 0 ==> port == -1
  {
    if s.accessType == Native then NATIVE_PORT else -1
  }

  /** `getNotFoundTK`: 1 when auto-increment is both supported and requested. */
  function NotFoundTK(s: Settings, useAutoinc: bool): (tk: int)
    ensures s.supportsAutoInc && useAutoinc ==> tk == 1
    ensures !(s.supportsAutoInc && useAutoinc) ==> tk == s.inheritedNotFoundTK
  {
    if s.supportsAutoInc && useAutoinc then 1 else s.inheritedNotFoundTK
  }

  const URL_PREFIX: string := "jdbc:informix-sqli://"
  const SERVER_MARK: string := ":INFORMIXSERVER="
  const URL_SUFFIX: string := ";DELIMIDENT=Y"

  /** `getURL`. */
  function Url(s: Settings, hostname: string, port: string, databaseName: string): string {
    URL_PREFIX + hostname + ":" + port + "/" + databaseName + SERVER_MARK + s.servername + URL_SUFFIX
  }

  datatype UrlParts = UrlParts(hostname: string, port: string, databaseName: string, servername: string)

  /** Index of the first `c` in `str`, or `|str|`. */
  function IndexOf(str: string, c: char): (i: nat)
    ensures i <= |str|
    ensures i < |str| ==> str[i] == c
    ensures forall j :: 0 <= j < i ==> str[j] != c
  {
    if |str| == 0 then 0 else if str[0] == c then 0 else 1 + IndexOf(str[1..], c)
  }

  /** Splitting `a + [c] + b` at its first `c` gives back `a` and `b` when `a` holds no `c`. */
  lemma SplitAtSeparator(a: string, c: char, b: string)
    requires c !in a
    ensures var str := a + [c] + b;
      var i := IndexOf(str, c);
      i == |a| && str[..i] == a && str[i + 1..] == b
  {
    var str := a + [c] + b;
    assert str[|a|] == c;
    assert forall j :: 0 <= j < |a| ==> str[j] == a[j];
  }

  /**
   * Splits an Informix URL at the first `:` after the scheme, the next `/`,
   * and the next `:`, which must start the server marker.
   */
  function ParseUrl(url: string): Nullable<UrlParts> {
    if !StartsWith(url, URL_PREFIX) then Null
    else
      var rest := url[|URL_PREFIX|..];
      var i := IndexOf(rest, ':');
      if i == |rest| then Null else ParseAfterHost(rest[..i], rest[i + 1..])
  }

  function ParseAfterHost(hostname: string, afterHost: string): Nullable<UrlParts> {
    var j := IndexOf(afterHost, '/');
    if j == |afterHost| then Null else ParseAfterPort(hostname, afterHost[..j], afterHost[j + 1..])
  }

  function ParseAfterPort(hostname: string, port: string, afterPort: string): Nullable<UrlParts> {
    var k := IndexOf(afterPort, ':');
    match ParseServer(afterPort[k..])
    case NonNull(server) => NonNull(UrlParts(hostname, port, afterPort[..k], server))
    case Null => Null
  }

  function ParseServer(tail: string): Nullable<string> {
    if |tail| >= |SERVER_MARK| + |URL_SUFFIX| && StartsWith(tail, SERVER_MARK) && EndsWith(tail, URL_SUFFIX) then
      NonNull(tail[|SERVER_MARK|..|tail| - |URL_SUFFIX|])
    else Null
  }

  lemma ParseServerRoundTrip(servername: string)
    ensures ParseServer(SERVER_MARK + servername + URL_SUFFIX) == NonNull(servername)
  {
    var tail := SERVER_MARK + servername + URL_SUFFIX;
    assert tail[..|SERVER_MARK|] == SERVER_MARK;
    assert tail[|tail| - |URL_SUFFIX|..] == URL_SUFFIX;
    assert tail[|SERVER_MARK|..|tail| - |URL_SUFFIX|] == servername;
  }

  /** Splitting `a + tail` before its first `c`, when `tail` starts with `c` and `a` holds none. */
  lemma SplitBeforeSeparator(a: string, c: char, tail: string)
    requires c !in a && 0 < |tail| && tail[0] == c
    ensures var str := a + tail;
      var i := IndexOf(str, c);
      i == |a| && str[..i] == a && str[i..] == tail
  {
    assert a + tail == a + [c] + tail[1..];
    SplitAtSeparator(a, c, tail[1..]);
  }

  lemma ParseAfterPortRoundTrip(hostname: string, port: string, databaseName: string, servername: string)
    requires ':' !in databaseName
    ensures ParseAfterPort(hostname, port, databaseName + SERVER_MARK + servername + URL_SUFFIX)
         == NonNull(UrlParts(hostname, port, databaseName, servername))
  {
    var tail := SERVER_MARK + servername + URL_SUFFIX;
    assert databaseName + SERVER_MARK + servername + URL_SUFFIX == databaseName + tail;
    SplitBeforeSeparator(databaseName, ':', tail);
    ParseServerRoundTrip(servername);
  }

  lemma ParseAfterHostRoundTrip(hostname: string, port: string, databaseName: string, servername: string)
    requires '/' !in port && ':' !in databaseName
    ensures ParseAfterHost(hostname, port + "/" + databaseName + SERVER_MARK + servername + URL_SUFFIX)
         == NonNull(UrlParts(hostname, port, databaseName, servername))
  {
    var afterPort := databaseName + SERVER_MARK + servername + URL_SUFFIX;
    assert port + "/" + databaseName + SERVER_MARK + servername + URL_SUFFIX == port + ['/'] + afterPort;
    SplitAtSeparator(port, '/', afterPort);
    ParseAfterPortRoundTrip(hostname, port, databaseName, servername);
  }

  /**
   * The URL carries host, port, database and server recoverably, as long
   * as the host and database hold no `:` and the port holds no `/`.
   */
  lemma UrlRoundTrip(s: Settings, hostname: string, port: string, databaseName: string)
    requires ':' !in hostname && '/' !in port && ':' !in databaseName
    ensures ParseUrl(Url(s, hostname, port, databaseName)) == NonNull(UrlParts(hostname, port, databaseName, s.servername))
  {
    var afterHost := port + "/" + databaseName + SERVER_MARK + s.servername + URL_SUFFIX;
    var rest := hostname + [':'] + afterHost;
    var url := Url(s, hostname, port, databaseName);
    assert url == URL_PREFIX + rest;
    assert url[..|URL_PREFIX|] == URL_PREFIX;
    assert url[|URL_PREFIX|..] == rest;
    SplitAtSeparator(hostname, ':', afterHost);
    ParseAfterHostRoundTrip(hostname, port, databaseName, s.servername);
  }

  // ---------------------------------------------------------------------
  // Query templates
  // ---------------------------------------------------------------------

  const SELECT_FIRST: string := "SELECT FIRST 1 "
  const FROM: string := " FROM "

  /** The column and the table a one-row probe query reads. */
  datatype ColumnQuery = ColumnQuery(column: string, table: string)

  /**
   * Reads a probe query back: the column runs from after `SELECT FIRST 1 `
   * to the next space, which must open ` FROM `; the table is the rest.
   */
  function ParseColumnQuery(sql: string): Nullable<ColumnQuery> {
    if !StartsWith(sql, SELECT_FIRST) then Null
    else
      var rest := sql[|SELECT_FIRST|..];
      var i := IndexOf(rest, ' ');
      var tail := rest[i..];
      if StartsWith(tail, FROM) then NonNull(ColumnQuery(rest[..i], tail[|FROM|..])) else Null
  }

  /** `getSQLQueryColumnFields`: one row of one column. */
  function QueryColumnFields(columnname: string, tableName: string): (sql: string)
    ensures StartsWith(sql, SELECT_FIRST)
    ensures EndsWith(sql, FROM + tableName)
    ensures |SELECT_FIRST| + |FROM + tableName| <= |sql|
    ensures sql[|SELECT_FIRST|..|sql| - |FROM + tableName|] == columnname
  {
    var sql := SELECT_FIRST + columnname + FROM + tableName;
    assert sql == SELECT_FIRST + (columnname + FROM + tableName);
    StartsWithAppend(SELECT_FIRST, columnname + FROM + tableName);
    assert sql == (SELECT_FIRST + columnname) + (FROM + tableName);
    EndsWithAppend(SELECT_FIRST + columnname, FROM + tableName);
    sql
  }

  /** A column name without spaces and its table are read back out of the column query. */
  lemma ColumnQueryRoundTrip(columnname: string, tableName: string)
    requires ' ' !in columnname
    ensures ParseColumnQuery(QueryColumnFields(columnname, tableName)) == NonNull(ColumnQuery(columnname, tableName))
  {
    var sql := QueryColumnFields(columnname, tableName);
    var tail := FROM + tableName;
    assert sql == SELECT_FIRST + (columnname + tail);
    assert sql[|SELECT_FIRST|..] == columnname + tail;
    SplitBeforeSeparator(columnname, ' ', tail);
    assert tail[..|FROM|] == FROM;
    assert tail[|FROM|..] == tableName;
  }

  /** `getSQLQueryFields`: one row of every column. */
  function QueryFields(tableName: string): (sql: string)
    ensures sql == QueryColumnFields("*", tableName)
    ensures ParseColumnQuery(sql) == NonNull(ColumnQuery("*", tableName))
  {
    ColumnQueryRoundTrip("*", tableName);
    "SELECT FIRST 1 * FROM " + tableName
  }

  /** `getSQLTableExists`: probes the table by reading one row of every column. */
  function TableExists(tablename: string): (sql: string)
    ensures StartsWith(sql, "SELECT FIRST 1 * FROM ")
    ensures sql[|"SELECT FIRST 1 * FROM "|..] == tablename
    ensures ParseColumnQuery(sql) == NonNull(ColumnQuery("*", tablename))
  {
    QueryFields(tablename)
  }

  /** `getSQLColumnExists`: probes the column by reading one row of it. */
  function ColumnExists(columnname: string, tablename: string): (sql: string)
    ensures StartsWith(sql, SELECT_FIRST) && EndsWith(sql, FROM + tablename)
    ensures |SELECT_FIRST| + |FROM + tablename| <= |sql|
    ensures sql[|SELECT_FIRST|..|sql| - |FROM + tablename|] == columnname
    ensures ' ' !in columnname ==> ParseColumnQuery(sql) == NonNull(ColumnQuery(columnname, tablename))
  {
    var sql := QueryColumnFields(columnname, tablename);
    if ' ' !in columnname then ColumnQueryRoundTrip(columnname, tablename); sql else sql
  }

  const INSERT_INTO: string := "insert into "
  const VALUES_ONE_ONE: string := ") values (1, 1)"

  /** The table, key field and version field of an unknown-row insert. */
  datatype UnknownRowInsert = UnknownRowInsert(table: string, keyField: string, versionField: string)

  /**
   * Reads an unknown-row insert back: the table runs up to the first `(`,
   * the key field up to the next `,`, and the version field from after
   * `, ` up to the closing `) values (1, 1)`.
   */
  function ParseUnknownRowInsert(sql: string): Nullable<UnknownRowInsert> {
    if !StartsWith(sql, INSERT_INTO) then Null
    else
      var rest := sql[|INSERT_INTO|..];
      var i := IndexOf(rest, '(');
      if i == |rest| then Null else ParseInsertFields(rest[..i], rest[i + 1..])
  }

  function ParseInsertFields(table: string, fields: string): Nullable<UnknownRowInsert> {
    var j := IndexOf(fields, ',');
    match ParseVersionTail(fields[j..])
    case NonNull(version) => NonNull(UnknownRowInsert(table, fields[..j], version))
    case Null => Null
  }

  function ParseVersionTail(tail: string): Nullable<string> {
    if 2 + |VALUES_ONE_ONE| <= |tail| && StartsWith(tail, ", ") && EndsWith(tail, VALUES_ONE_ONE) then
      NonNull(tail[2..|tail| - |VALUES_ONE_ONE|])
    else Null
  }

  lemma VersionTailRoundTrip(versionField: string)
    ensures ParseVersionTail(", " + versionField + VALUES_ONE_ONE) == NonNull(versionField)
  {
    var tail := ", " + versionField + VALUES_ONE_ONE;
    assert tail[..2] == ", ";
    assert tail[|tail| - |VALUES_ONE_ONE|..] == VALUES_ONE_ONE;
    assert tail[2..|tail| - |VALUES_ONE_ONE|] == versionField;
  }

  lemma InsertFieldsRoundTrip(table: string, keyField: string, versionField: string)
    requires ',' !in keyField
    ensures ParseInsertFields(table, keyField + ", " + versionField + VALUES_ONE_ONE)
         == NonNull(UnknownRowInsert(table, keyField, versionField))
  {
    var tail := ", " + versionField + VALUES_ONE_ONE;
    assert keyField + ", " + versionField + VALUES_ONE_ONE == keyField + tail;
    SplitBeforeSeparator(keyField, ',', tail);
    VersionTailRoundTrip(versionField);
  }

  /** `getSQLInsertAutoIncUnknownDimensionRow`: the unknown row gets key 1 and version 1. */
  function InsertUnknownDimensionRow(schemaTable: string, keyField: string, versionField: string): (sql: string)
    ensures StartsWith(sql, INSERT_INTO + schemaTable + "(" + keyField + ", " + versionField)
    ensures EndsWith(sql, VALUES_ONE_ONE)
    ensures |sql| == |INSERT_INTO + schemaTable + "(" + keyField + ", " + versionField| + |VALUES_ONE_ONE|
  {
    var head := INSERT_INTO + schemaTable + "(" + keyField + ", " + versionField;
    StartsWithAppend(head, VALUES_ONE_ONE);
    EndsWithAppend(head, VALUES_ONE_ONE);
    head + VALUES_ONE_ONE
  }

  /**
   * The table, key field and version field are read back out of the
   * insert, as long as the table holds no `(` and the key field no `,`.
   */
  lemma UnknownRowInsertRoundTrip(schemaTable: string, keyField: string, versionField: string)
    requires '(' !in schemaTable && ',' !in keyField
    ensures ParseUnknownRowInsert(InsertUnknownDimensionRow(schemaTable, keyField, versionField))
         == NonNull(UnknownRowInsert(schemaTable, keyField, versionField))
  {
    var sql := InsertUnknownDimensionRow(schemaTable, keyField, versionField);
    var fields := keyField + ", " + versionField + VALUES_ONE_ONE;
    assert sql == INSERT_INTO + (schemaTable + ['('] + fields);
    assert sql[..|INSERT_INTO|] == INSERT_INTO;
    assert sql[|INSERT_INTO|..] == schemaTable + ['('] + fields;
    SplitAtSeparator(schemaTable, '(', fields);
    InsertFieldsRoundTrip(schemaTable, keyField, versionField);
  }

  /**
   * With auto-increment supported and in use, the key the unknown row
   * receives is the dialect's not-found key.
   */
  lemma UnknownRowUsesNotFoundKey(s: Settings, schemaTable: string, keyField: string, versionField: string)
    requires s.supportsAutoInc
    ensures EndsWith(InsertUnknownDimensionRow(schemaTable, keyField, versionField),
                     " values (" + IntToString(NotFoundTK(s, true)) + ", 1)")
  {
    assert IntToString(1) == "1";
    assert VALUES_ONE_ONE == ")" + " values (1, 1)";
  }
}

=== FILE: java_lang.dfy ===
/**
 * The few pieces of Java semantics the engine code relies on: nullable
 * references, 32-bit `int` arithmetic, `Integer.toString`, and the
 * `String.endsWith` / `String.equalsIgnoreCase` tests.
 */
module JavaLang {

  /** A Java reference that may be `null`. */
  datatype Nullable<+T> = Null | NonNull(value: T)

  // ---------------------------------------------------------------------
  // 32-bit int
  // ---------------------------------------------------------------------

  const MIN_INT: int := -0x8000_0000
  const MAX_INT: int := 0x7fff_ffff
  const TWO_32: int := 0x1_0000_0000

  type Int32 = x: int | MIN_INT <= x <= MAX_INT

  /** Two's-complement truncation of a mathematical integer to a Java `int`. */
  function Wrap(x: int): (r: Int32)
    ensures MIN_INT <= x <= MAX_INT ==> r == x
    ensures x == MAX_INT + 1 ==> r == MIN_INT
  {
    (x - MIN_INT) % TWO_32 + MIN_INT
  }

  /** Java's `x + 1` (and `x++`) on an `int`. */
  function Increment(x: Int32): (r: Int32)
    ensures x < MAX_INT ==> r == x + 1
    ensures x == MAX_INT ==> r == MIN_INT
  {
    Wrap(x + 1)
  }

  // ---------------------------------------------------------------------
  // Integer.toString (what `"" + i` produces)
  // ---------------------------------------------------------------------

  predicate IsDigit(c: char) {
    '0' <= c <= '9'
  }

  predicate AllDigits(s: string) {
    forall i :: 0 <= i < |s| ==> IsDigit(s[i])
  }

  function DigitChar(d: nat): (c: char)
    requires d < 10
    ensures IsDigit(c)
  {
    ('0' as int + d) as char
  }

  function DigitValue(c: char): (d: nat)
    requires IsDigit(c)
    ensures d < 10
  {
    c as int - '0' as int
  }

  /** Decimal digits of `n`, most significant first, without leading zeros. */
  function NatToDecimal(n: nat): (s: string)
    ensures 1 <= |s|
    ensures AllDigits(s)
    ensures |s| > 1 ==> s[0] != '0'
    decreases n
  {
    if n < 10 then [DigitChar(n)] else NatToDecimal(n / 10) + [DigitChar(n % 10)]
  }

  /** Value of a string of decimal digits (the empty string reads as 0). */
  function DecimalValue(s: string): nat
    requires AllDigits(s)
    decreases |s|
  {
    if |s| == 0 then 0 else DecimalValue(s[..|s| - 1]) * 10 + DigitValue(s[|s| - 1])
  }

  /** Java's `Integer.toString`: an optional minus sign followed by the digits. */
  function IntToString(x: int): (s: string)
    ensures 1 <= |s|
    ensures x < 0 <==> s[0] == '-'
    ensures x >= 0 ==> AllDigits(s)
    ensures x < 0 ==> AllDigits(s[1..]) && 2 <= |s|
  {
    if x < 0 then "-" + NatToDecimal(-x) else NatToDecimal(x)
  }

  /** Reads back a string produced by `IntToString`; `Null` for anything else. */
  function ParseInt(s: string): Nullable<int> {
    if 2 <= |s| && s[0] == '-' && AllDigits(s[1..]) then NonNull(-(DecimalValue(s[1..]) as int))
    else if 1 <= |s| && AllDigits(s) then NonNull(DecimalValue(s))
    else Null
  }

  lemma {:induction false} DecimalRoundTrip(n: nat)
    ensures DecimalValue(NatToDecimal(n)) == n
    decreases n
  {
    if n >= 10 {
      var s := NatToDecimal(n);
      assert s[..|s| - 1] == NatToDecimal(n / 10);
      DecimalRoundTrip(n / 10);
    }
  }

  /** `Integer.toString` loses nothing: parsing gives back the number. */
  lemma IntToStringRoundTrip(x: int)
    ensures ParseInt(IntToString(x)) == NonNull(x)
  {
    if x < 0 {
      assert IntToString(x)[1..] == NatToDecimal(-x);
      DecimalRoundTrip(-x);
    } else {
      DecimalRoundTrip(x);
    }
  }

  // ---------------------------------------------------------------------
  // String tests
  // ---------------------------------------------------------------------

  /** Java's `s.endsWith(suffix)`. */
  predicate EndsWith(s: string, suffix: string) {
    |suffix| <= |s| && s[|s| - |suffix|..] == suffix
  }

  /** Java's `s.startsWith(prefix)`. */
  predicate StartsWith(s: string, prefix: string) {
    |prefix| <= |s| && s[..|prefix|] == prefix
  }

  lemma EndsWithAppend(s: string, suffix: string)
    ensures EndsWith(s + suffix, suffix)
  {
    assert (s + suffix)[|s|..] == suffix;
  }

  lemma StartsWithAppend(prefix: string, s: string)
    ensures StartsWith(prefix + s, prefix)
  {
    assert (prefix + s)[..|prefix|] == prefix;
  }

  function ToUpperAscii(c: char): char {
    if 'a' <= c <= 'z' then (c as int - 32) as char else c
  }

  function ToLowerAscii(c: char): char {
    if 'A' <= c <= 'Z' then (c as int + 32) as char else c
  }

  /** One character position of `String.regionMatches(true, ...)`. */
  predicate CharEqualsIgnoreCase(a: char, b: char) {
    a == b || ToUpperAscii(a) == ToUpperAscii(b) || ToLowerAscii(a) == ToLowerAscii(b)
  }

  /**
   * Java's `s.equalsIgnoreCase(other)`: false for a null argument, otherwise
   * equal lengths and every position equal up to case (ASCII letters only).
   */
  predicate EqualsIgnoreCase(s: string, other: Nullable<string>) {
    && other.NonNull?
    && |s| == |other.value|
    && forall i :: 0 <= i < |s| ==> CharEqualsIgnoreCase(s[i], other.value[i])
  }

  function LowerAscii(s: string): (r: string)
    ensures |r| == |s|
    ensures forall i :: 0 <= i < |s| ==> r[i] == ToLowerAscii(s[i])
  {
    if |s| == 0 then [] else [ToLowerAscii(s[0])] + LowerAscii(s[1..])
  }

  lemma CharEqualsIgnoreCaseIsLowerEquality(a: char, b: char)
    ensures CharEqualsIgnoreCase(a, b) <==> ToLowerAscii(a) == ToLowerAscii(b)
  {
  }

  /**
   * The character-wise test agrees with comparing the lower-cased strings,
   * in both directions.
   */
  lemma EqualsIgnoreCaseIsLowerEquality(s: string, t: string)
    ensures EqualsIgnoreCase(s, NonNull(t)) <==> LowerAscii(s) == LowerAscii(t)
  {
    if EqualsIgnoreCase(s, NonNull(t)) {
      forall i | 0 <= i < |s|
        ensures LowerAscii(s)[i] == LowerAscii(t)[i]
      {
        CharEqualsIgnoreCaseIsLowerEquality(s[i], t[i]);
      }
    }
    if LowerAscii(s) == LowerAscii(t) {
      forall i | 0 <= i < |s|
        ensures CharEqualsIgnoreCase(s[i], t[i])
      {
        assert LowerAscii(s)[i] == LowerAscii(t)[i];
        CharEqualsIgnoreCaseIsLowerEquality(s[i], t[i]);
      }
    }
  }
}

=== FILE: job_runner.dfy ===
/**
 * The nested-job runner: a one-shot runnable that executes a child job on
 * behalf of a job entry and always hands the job a result.
 *
 * `run()` is a sequential `try / catch (KettleException) / finally`. Every
 * call it makes into the job, its listeners and its extension points is
 * foreign code; here each such call is an outcome read from an `Env` (it
 * either completes or throws), and what the runner does is recorded as a
 * trace of `Event`s in the order it happens.
 */
module JobRunner {
  import opened JavaLang

  /**
   * The engine's `Result` as far as the runner touches it: the success flag,
   * the error count, and an opaque remainder (rows, files, exit status).
   * The runner's reference to it may be `null`.
   */
  datatype Result = Result(success: bool, nrErrors: int, payload: nat)

  /** Opaque identities of the job and the log channel the runner holds. */
  datatype JobRef = JobRef(id: nat)
  datatype LogRef = LogRef(id: nat)

  /** The runner's fields. */
  datatype Runner = Runner(job: JobRef, result: Nullable<Result>, entryNr: Int32, log: LogRef, finished: bool)

  /**
   * A `KettleException`, the `NullPointerException` a call on a `null`
   * result raises, or any other exception (an unchecked one).
   */
  datatype Thrown = KettleException | NullPointerException | OtherException

  /** What one foreign call does: return normally or throw. */
  datatype Step = Completes | Throws(thrown: Thrown)

  /** What `job.execute(nr, result)` does; it may return `null`. */
  datatype ExecuteOutcome = Returns(result: Nullable<Result>) | ExecuteThrows(thrown: Thrown)

  datatype ParentJob = ParentJob(stopped: bool)

  /**
   * Everything `run()` learns from the outside world: the stop flags of the
   * job and of its parent (if any), and the outcome of every call it makes.
   */
  datatype Env = Env(
    jobStopped: bool,
    parentJob: Nullable<ParentJob>,
    jobStartExtension: Step,
    startListeners: Step,
    execute: ExecuteOutcome,
    jobFinishExtension: Step,
    disposeMetastore: Step,
    finishListeners: Step)

  /** The observable calls `run()` makes, in the order it makes them. */
  datatype Event =
    | JobStartExtension
    | StartListeners
    | Execute(nr: Int32, incoming: Nullable<Result>)
    | JobSetResult(result: Nullable<Result>)
    | JobFinishExtension
    | DisposeMetastore
    | FinishListeners
    | JobSetFinished

  /** How the `try` part of `run()` was left. */
  datatype TryExit =
    | Returned                       // the early `return` for a stopped job
    | Completed                      // fell through, possibly via the catch block
    | Propagating(thrown: Thrown)    // an exception the catch block does not take, or one it raises

  datatype TryOutcome = TryOutcome(trace: seq<Event>, result: Nullable<Result>, exit: TryExit)

  /** What the `finally` block did; `escaped` is an exception raised by its own handler. */
  datatype FinallyOutcome = FinallyOutcome(trace: seq<Event>, result: Nullable<Result>, escaped: Nullable<Thrown>)

  /**
   * State after `run()`. The job stores the runner's `Result` object by
   * reference, so `jobResult` is the value that object holds at the end.
   */
  datatype RunOutcome = RunOutcome(runner: Runner, trace: seq<Event>, jobResult: Nullable<Result>, escaped: Nullable<Thrown>)

  // ---------------------------------------------------------------------
  // The runner
  // ---------------------------------------------------------------------

  /** The constructor: holds what it is given and is not finished. */
  function NewRunner(job: JobRef, result: Nullable<Result>, entryNr: Int32, log: LogRef): (r: Runner)
    ensures !r.finished
    ensures r.job == job && r.result == result && r.entryNr == entryNr && r.log == log
  {
    Runner(job, result, entryNr, log, false)
  }

  /** What both handlers do to a result: mark it unsuccessful and set its error count to one. */
  function MarkFailed(r: Result): (f: Result)
    ensures !f.success && f.nrErrors == 1
    ensures f.payload == r.payload
  {
    r.(success := false, nrErrors := 1)
  }

  /** The guard of the early return. */
  predicate StopRequested(env: Env) {
    env.jobStopped || (env.parentJob.NonNull? && env.parentJob.value.stopped)
  }

  /**
   * An exception raised inside the `try`: only a `KettleException` is
   * caught, and its handler itself throws when the result is `null`.
   */
  function Raise(thrown: Thrown, trace: seq<Event>, result: Nullable<Result>): TryOutcome {
    if thrown != KettleException then TryOutcome(trace, result, Propagating(thrown))
    else if result.Null? then TryOutcome(trace, result, Propagating(NullPointerException))
    else TryOutcome(trace, NonNull(MarkFailed(result.value)), Completed)
  }

  /** The `try` block together with its `catch ( KettleException e )`. */
  function TryBlock(r: Runner, env: Env): TryOutcome {
    if StopRequested(env) then
      TryOutcome([], r.result, Returned)
    else if env.jobStartExtension.Throws? then
      Raise(env.jobStartExtension.thrown, [JobStartExtension], r.result)
    else if env.startListeners.Throws? then
      Raise(env.startListeners.thrown, [JobStartExtension, StartListeners], r.result)
    else
      var trace := [JobStartExtension, StartListeners, Execute(Wrap(r.entryNr + 1), r.result)];
      match env.execute
      case Returns(res) => TryOutcome(trace, res, Completed)
      case ExecuteThrows(thrown) => Raise(thrown, trace, r.result)
  }

  /** The three calls of the inner `try` in the `finally` block, in order. */
  function FinishSteps(env: Env): seq<Step> {
    [env.jobFinishExtension, env.disposeMetastore, env.finishListeners]
  }

  const FINISH_EVENTS: seq<Event> := [JobFinishExtension, DisposeMetastore, FinishListeners]

  predicate IsFinishHook(e: Event) {
    e.JobFinishExtension? || e.DisposeMetastore? || e.FinishListeners?
  }

  /** Index of the first step that throws, or `|steps|` when none does. */
  function FirstThrow(steps: seq<Step>): (k: nat)
    ensures k <= |steps|
    ensures forall i :: 0 <= i < k ==> steps[i].Completes?
    ensures k < |steps| ==> steps[k].Throws?
  {
    if |steps| == 0 then 0
    else if steps[0].Throws? then 0
    else 1 + FirstThrow(steps[1..])
  }

  /**
   * The `finally` block: hand the result to the job, attempt the finish
   * steps until one throws (any exception is caught there), then mark the
   * job finished. The handler's error-count update throws on a `null`
   * result; that exception leaves the block before `setFinished`.
   */
  function FinallyBlock(result: Nullable<Result>, env: Env): FinallyOutcome {
    var steps := FinishSteps(env);
    var k := FirstThrow(steps);
    if k == |steps| then
      FinallyOutcome([JobSetResult(result)] + FINISH_EVENTS + [JobSetFinished], result, Null)
    else if result.Null? then
      FinallyOutcome([JobSetResult(result)] + FINISH_EVENTS[..k + 1], result, NonNull(NullPointerException))
    else
      FinallyOutcome([JobSetResult(result)] + FINISH_EVENTS[..k + 1] + [JobSetFinished], NonNull(MarkFailed(result.value)), Null)
  }

  /**
   * `run()`. An exception raised in the `finally` block replaces one the
   * `try` left pending. `finished` is assigned after the `finally` block, so
   * it is set only when the `try` was left normally and the `finally` block
   * raised nothing; nothing ever sets it back to false.
   */
  function Run(r: Runner, env: Env): (o: RunOutcome)
    ensures o.runner.job == r.job && o.runner.entryNr == r.entryNr && o.runner.log == r.log
    ensures o.jobResult == o.runner.result
    ensures r.finished ==> o.runner.finished
  {
    var t := TryBlock(r, env);
    var f := FinallyBlock(t.result, env);
    var escaped := if f.escaped.NonNull? then f.escaped else if t.exit.Propagating? then NonNull(t.exit.thrown) else Null;
    RunOutcome(
      r.(result := f.result, finished := r.finished || (t.exit.Completed? && escaped.Null?)),
      t.trace + f.trace,
      f.result,
      escaped)
  }

  // ---------------------------------------------------------------------
  // Counting events
  // ---------------------------------------------------------------------

  function Count(trace: seq<Event>, p: Event -> bool): (n: nat)
    ensures n <= |trace|
  {
    if |trace| == 0 then 0 else (if p(trace[0]) then 1 else 0) + Count(trace[1..], p)
  }

  lemma {:induction false} CountAppend(a: seq<Event>, b: seq<Event>, p: Event -> bool)
    ensures Count(a + b, p) == Count(a, p) + Count(b, p)
    decreases |a|
  {
    if |a| == 0 {
      assert a + b == b;
    } else {
      assert (a + b)[1..] == a[1..] + b;
      CountAppend(a[1..], b, p);
    }
  }

  lemma {:induction false} CountNone(a: seq<Event>, p: Event -> bool)
    requires forall i :: 0 <= i < |a| ==> !p(a[i])
    ensures Count(a, p) == 0
    decreases |a|
  {
    if |a| > 0 {
      CountNone(a[1..], p);
    }
  }

  predicate IsSetResult(e: Event) { e.JobSetResult? }
  predicate IsExecute(e: Event) { e.Execute? }

  // ---------------------------------------------------------------------
  // Shape of every trace
  // ---------------------------------------------------------------------

  /** Events the `try` block can emit. */
  predicate IsStartEvent(e: Event) {
    e.JobStartExtension? || e.StartListeners? || e.Execute?
  }

  lemma TryTraceHasStartEventsOnly(r: Runner, env: Env)
    ensures forall i :: 0 <= i < |TryBlock(r, env).trace| ==> IsStartEvent(TryBlock(r, env).trace[i])
    ensures |TryBlock(r, env).trace| <= 3
  {
  }

  /**
   * The shape of what the `finally` block emits: one `setResult`, then only
   * finish hooks, ending with `setFinished` or with the hook whose handler
   * threw.
   */
  predicate FinallyShaped(f: seq<Event>) {
    && 2 <= |f|
    && f[0].JobSetResult?
    && (forall i :: 1 <= i < |f| - 1 ==> IsFinishHook(f[i]))
    && (IsFinishHook(f[|f| - 1]) || f[|f| - 1] == JobSetFinished)
  }

  /**
   * The hooks the `finally` block attempts are a prefix of the three, ending
   * at the first that throws; `setFinished` follows unless the handler met a
   * `null` result.
   */
  lemma FinallyTraceShape(result: Nullable<Result>, env: Env)
    ensures var f := FinallyBlock(result, env);
      && FinallyShaped(f.trace)
      && f.trace[0] == JobSetResult(result)
      && (f.trace[|f.trace| - 1] == JobSetFinished <==> f.escaped.Null?)
      && (f.escaped.Null? <==> result.NonNull? || FirstThrow(FinishSteps(env)) == 3)
      && (f.escaped.NonNull? ==> f.escaped == NonNull(NullPointerException))
  {
  }

  /** Ordering facts of any trace made of start events followed by a `finally` trace. */
  lemma TraceOrder(pre: seq<Event>, f: seq<Event>)
    requires forall i :: 0 <= i < |pre| ==> IsStartEvent(pre[i])
    requires FinallyShaped(f)
    ensures var tr := pre + f;
      && 0 < |tr|
      && tr[|tr| - 1] == f[|f| - 1]
      && Count(tr, IsSetResult) == 1
      && (forall i, j :: 0 <= i < j < |tr| && IsFinishHook(tr[i]) ==> !tr[j].JobSetResult?)
      && (forall i, j :: 0 <= i < j < |tr| && tr[i].JobSetResult? ==> !IsStartEvent(tr[j]))
  {
    var tr := pre + f;
    CountAppend(pre, f, IsSetResult);
    CountNone(pre, IsSetResult);
    assert f == [f[0]] + f[1..];
    CountAppend([f[0]], f[1..], IsSetResult);
    CountNone(f[1..], IsSetResult);
    forall i, j | 0 <= i < j < |tr| && IsFinishHook(tr[i])
      ensures !tr[j].JobSetResult?
    {
      assert i > |pre|;
    }
    forall i, j | 0 <= i < j < |tr| && tr[i].JobSetResult?
      ensures !IsStartEvent(tr[j])
    {
      assert i >= |pre|;
    }
  }

  /**
   * Every run calls `job.setResult` exactly once, before any finish hook
   * and after every start event -- on the early-return, success,
   * caught-failure and escaping-exception paths alike. Its last call is
   * `job.setFinished(true)` unless a finish hook failed while the result
   * handed over was `null`; then a `NullPointerException` escapes instead.
   */
  lemma SetResultOnceBeforeFinishHooks(r: Runner, env: Env)
    ensures var o := Run(r, env);
      && 0 < |o.trace|
      && Count(o.trace, IsSetResult) == 1
      && (forall i, j :: 0 <= i < j < |o.trace| && IsFinishHook(o.trace[i]) ==> !o.trace[j].JobSetResult?)
      && (forall i, j :: 0 <= i < j < |o.trace| && o.trace[i].JobSetResult? ==> !IsStartEvent(o.trace[j]))
      && (o.trace[|o.trace| - 1] == JobSetFinished
          <==> TryBlock(r, env).result.NonNull? || FirstThrow(FinishSteps(env)) == 3)
      && (o.trace[|o.trace| - 1] != JobSetFinished ==> o.escaped == NonNull(NullPointerException))
  {
    var t := TryBlock(r, env);
    TryTraceHasStartEventsOnly(r, env);
    FinallyTraceShape(t.result, env);
    TraceOrder(t.trace, FinallyBlock(t.result, env).trace);
  }

  /** How many finish hooks the `finally` block attempts: up to and including the first that throws. */
  function HooksAttempted(env: Env): nat {
    var k := FirstThrow(FinishSteps(env));
    if k < 3 then k + 1 else 3
  }

  /** The `finally` trace: `setResult`, the hooks attempted, then `setFinished` unless the handler threw. */
  lemma FinallyTraceSplit(result: Nullable<Result>, env: Env)
    ensures FinallyBlock(result, env).trace
      == [JobSetResult(result)] + FINISH_EVENTS[..HooksAttempted(env)]
         + (if FirstThrow(FinishSteps(env)) == 3 || result.NonNull? then [JobSetFinished] else [])
  {
    if FirstThrow(FinishSteps(env)) == 3 {
      assert FINISH_EVENTS[..3] == FINISH_EVENTS;
    }
  }

  /** The finish hooks attempted stop at the first one that throws. */
  lemma HookPrefixCounts(env: Env)
    ensures var m := multiset(FINISH_EVENTS[..HooksAttempted(env)]);
      && m[JobFinishExtension] == 1
      && m[DisposeMetastore] == (if env.jobFinishExtension.Completes? then 1 else 0)
      && m[FinishListeners] == (if env.jobFinishExtension.Completes? && env.disposeMetastore.Completes? then 1 else 0)
  {
    var steps := FinishSteps(env);
    var k := FirstThrow(steps);
    assert steps[0] == env.jobFinishExtension && steps[1] == env.disposeMetastore && steps[2] == env.finishListeners;
    if env.jobFinishExtension.Throws? {
      assert k == 0;
      assert FINISH_EVENTS[..1] == [JobFinishExtension];
    } else if env.disposeMetastore.Throws? {
      assert k == 1;
      assert FINISH_EVENTS[..2] == [JobFinishExtension, DisposeMetastore];
    } else {
      assert k >= 2;
      assert FINISH_EVENTS[..3] == [JobFinishExtension, DisposeMetastore, FinishListeners];
      assert FINISH_EVENTS[..2] == [JobFinishExtension, DisposeMetastore];
    }
  }

  /** The `finally` block hands the result over, then attempts the hooks in order. */
  lemma FinallyHookOrder(result: Nullable<Result>, env: Env)
    ensures var f := FinallyBlock(result, env).trace;
      var h := HooksAttempted(env);
      && 1 + h <= |f|
      && f[0] == JobSetResult(result)
      && f[1..1 + h] == FINISH_EVENTS[..h]
  {
    var h := HooksAttempted(env);
    var tail: seq<Event> := if FirstThrow(FinishSteps(env)) == 3 || result.NonNull? then [JobSetFinished] else [];
    FinallyTraceSplit(result, env);
    assert ([JobSetResult(result)] + FINISH_EVENTS[..h] + tail)[1..1 + h] == FINISH_EVENTS[..h];
  }

  /** How often the `finally` block attempts each finish hook. */
  lemma FinallyHookCounts(result: Nullable<Result>, env: Env)
    ensures var m := multiset(FinallyBlock(result, env).trace);
      && m[JobFinishExtension] == 1
      && m[DisposeMetastore] == (if env.jobFinishExtension.Completes? then 1 else 0)
      && m[FinishListeners] == (if env.jobFinishExtension.Completes? && env.disposeMetastore.Completes? then 1 else 0)
  {
    var hooks := FINISH_EVENTS[..HooksAttempted(env)];
    var tail: seq<Event> := if FirstThrow(FinishSteps(env)) == 3 || result.NonNull? then [JobSetFinished] else [];
    FinallyTraceSplit(result, env);
    HookPrefixCounts(env);
    assert multiset(FinallyBlock(result, env).trace) == multiset([JobSetResult(result)]) + multiset(hooks) + multiset(tail);
  }

  /** The events of the `try` block: which start steps it attempts; no finish hook. */
  lemma TryStepCounts(r: Runner, env: Env)
    ensures var t := TryBlock(r, env).trace;
      && multiset(t)[JobFinishExtension] == 0
      && multiset(t)[DisposeMetastore] == 0
      && multiset(t)[FinishListeners] == 0
      && multiset(t)[JobStartExtension] == (if StopRequested(env) then 0 else 1)
      && multiset(t)[StartListeners] == (if !StopRequested(env) && env.jobStartExtension.Completes? then 1 else 0)
      && multiset(t)[Execute(Wrap(r.entryNr + 1), r.result)] == (if StartsCleanly(env) then 1 else 0)
      && (forall i :: 0 <= i < |t| && t[i].Execute? ==> StartsCleanly(env) && t[i] == Execute(Wrap(r.entryNr + 1), r.result))
  {
    var t := TryBlock(r, env).trace;
    if StopRequested(env) {
      assert t == [];
    } else if env.jobStartExtension.Throws? {
      assert t == [JobStartExtension];
    } else if env.startListeners.Throws? {
      assert t == [JobStartExtension, StartListeners];
    } else {
      assert t == [JobStartExtension, StartListeners, Execute(Wrap(r.entryNr + 1), r.result)];
    }
  }

  /** The `finally` block emits no start step and no `execute`. */
  lemma FinallyHasNoStartEvents(result: Nullable<Result>, env: Env)
    ensures var f := FinallyBlock(result, env).trace;
      && JobStartExtension !in f
      && StartListeners !in f
      && (forall i :: 0 <= i < |f| ==> !IsStartEvent(f[i]))
  {
    var f := FinallyBlock(result, env).trace;
    FinallyTraceShape(result, env);
    forall i | 0 <= i < |f|
      ensures !IsStartEvent(f[i])
    {
      if 1 <= i < |f| - 1 {
        assert IsFinishHook(f[i]);
      }
    }
  }

  /** A trace of `run()` is the `try` trace followed by the `finally` trace. */
  lemma RunTraceSplit(r: Runner, env: Env)
    ensures Run(r, env).trace == TryBlock(r, env).trace + FinallyBlock(TryBlock(r, env).result, env).trace
  {
  }

  lemma SliceOfAppend(t: seq<Event>, f: seq<Event>, tr: seq<Event>, lo: nat, hi: nat)
    requires tr == t + f && lo <= hi <= |f|
    ensures tr[|t| + lo..|t| + hi] == f[lo..hi]
  {
  }

  lemma OccurrencesAppend(t: seq<Event>, f: seq<Event>, tr: seq<Event>, e: Event)
    requires tr == t + f
    ensures multiset(tr)[e] == multiset(t)[e] + multiset(f)[e]
  {
  }

  /**
   * On every path -- early return, success, caught or escaping exception --
   * the `finally` block attempts the finish hooks in order: the JobFinish
   * extension point exactly once, metastore disposal exactly when the
   * extension point completed, and the finish listeners exactly when both
   * completed.
   */
  lemma FinishHooksAttempted(r: Runner, env: Env)
    ensures var m := multiset(Run(r, env).trace);
      && m[JobFinishExtension] == 1
      && m[DisposeMetastore] == (if env.jobFinishExtension.Completes? then 1 else 0)
      && m[FinishListeners] == (if env.jobFinishExtension.Completes? && env.disposeMetastore.Completes? then 1 else 0)
  {
    var t := TryBlock(r, env).trace;
    var f := FinallyBlock(TryBlock(r, env).result, env).trace;
    var tr := Run(r, env).trace;
    RunTraceSplit(r, env);
    TryStepCounts(r, env);
    FinallyHookCounts(TryBlock(r, env).result, env);
    OccurrencesAppend(t, f, tr, JobFinishExtension);
    OccurrencesAppend(t, f, tr, DisposeMetastore);
    OccurrencesAppend(t, f, tr, FinishListeners);
  }

  /** The hooks attempted directly follow the single `setResult`, in the order of the source. */
  lemma FinishHooksFollowSetResult(r: Runner, env: Env)
    ensures var o := Run(r, env);
      var n := |TryBlock(r, env).trace|;
      && n + 1 + HooksAttempted(env) <= |o.trace|
      && o.trace[n] == JobSetResult(TryBlock(r, env).result)
      && o.trace[n + 1..n + 1 + HooksAttempted(env)] == FINISH_EVENTS[..HooksAttempted(env)]
  {
    var t := TryBlock(r, env).trace;
    var f := FinallyBlock(TryBlock(r, env).result, env).trace;
    var tr := Run(r, env).trace;
    var h := HooksAttempted(env);
    RunTraceSplit(r, env);
    FinallyHookOrder(TryBlock(r, env).result, env);
    SliceOfAppend(t, f, tr, 1, 1 + h);
    assert tr[|t|] == f[0];
  }

  /**
   * The `try` block stops at the first start step that throws: the JobStart
   * extension point is called exactly when no stop was requested, the start
   * listeners exactly when it also completed, and `execute` -- only ever
   * with `entryNr + 1` and the runner's result -- exactly when both did.
   */
  lemma StartStepsAttempted(r: Runner, env: Env)
    ensures var m := multiset(Run(r, env).trace);
      && m[JobStartExtension] == (if StopRequested(env) then 0 else 1)
      && m[StartListeners] == (if !StopRequested(env) && env.jobStartExtension.Completes? then 1 else 0)
      && m[Execute(Wrap(r.entryNr + 1), r.result)] == (if StartsCleanly(env) then 1 else 0)
    ensures var tr := Run(r, env).trace;
      forall i :: 0 <= i < |tr| && tr[i].Execute? ==> StartsCleanly(env) && tr[i] == Execute(Wrap(r.entryNr + 1), r.result)
  {
    var t := TryBlock(r, env).trace;
    var f := FinallyBlock(TryBlock(r, env).result, env).trace;
    var tr := Run(r, env).trace;
    var x := Execute(Wrap(r.entryNr + 1), r.result);
    RunTraceSplit(r, env);
    TryStepCounts(r, env);
    FinallyTraceShape(TryBlock(r, env).result, env);
    FinallyHasNoStartEvents(TryBlock(r, env).result, env);
    OccurrencesAppend(t, f, tr, JobStartExtension);
    OccurrencesAppend(t, f, tr, StartListeners);
    OccurrencesAppend(t, f, tr, x);
    forall i | 0 <= i < |tr| && tr[i].Execute?
      ensures StartsCleanly(env) && tr[i] == x
    {
      if i >= |t| {
        assert false;
      }
    }
  }

  // ---------------------------------------------------------------------
  // The paths through run()
  // ---------------------------------------------------------------------

  /** The `finally` block marks the result failed exactly when a finish hook throws; a `null` stays `null`. */
  lemma FinallyResult(result: Nullable<Result>, env: Env)
    ensures var f := FinallyBlock(result, env);
      && (result.Null? ==> f.result == Null)
      && (result.NonNull? ==>
            f.result == (if FirstThrow(FinishSteps(env)) == 3 then result else NonNull(MarkFailed(result.value))))
  {
  }

  /** After the early return, `run()` is its `finally` block alone. */
  lemma RunAfterEarlyReturn(r: Runner, env: Env)
    requires StopRequested(env)
    ensures var o := Run(r, env);
      var f := FinallyBlock(r.result, env);
      && o.trace == f.trace
      && o.escaped == f.escaped
      && o.runner.result == f.result
      && o.runner.finished == r.finished
  {
    assert TryBlock(r, env) == TryOutcome([], r.result, Returned);
    assert [] + FinallyBlock(r.result, env).trace == FinallyBlock(r.result, env).trace;
  }

  /**
   * A stopped job, or a job whose parent is stopped: nothing is started or
   * executed, yet the `finally` block still hands over the incoming result
   * and attempts the finish hooks. `finished` keeps the value it had. With a
   * result the job is marked finished and nothing escapes; with a `null`
   * result a failing finish hook makes a `NullPointerException` escape.
   */
  lemma EarlyReturnStillRunsFinally(r: Runner, env: Env)
    requires StopRequested(env)
    ensures var o := Run(r, env);
      && (forall i :: 0 <= i < |o.trace| ==> !IsStartEvent(o.trace[i]))
      && o.trace[0] == JobSetResult(r.result)
      && o.runner.finished == r.finished
      && multiset(o.trace)[JobFinishExtension] == 1
    ensures var o := Run(r, env);
      r.result.NonNull? ==>
        && o.escaped == Null
        && o.trace[|o.trace| - 1] == JobSetFinished
        && o.runner.result == (if FirstThrow(FinishSteps(env)) == 3 then r.result else NonNull(MarkFailed(r.result.value)))
    ensures var o := Run(r, env);
      r.result.Null? ==>
        && o.runner.result == Null
        && (o.escaped == Null <==> FirstThrow(FinishSteps(env)) == 3)
        && (o.escaped.NonNull? ==> o.escaped == NonNull(NullPointerException))
  {
    RunAfterEarlyReturn(r, env);
    FinallyTraceShape(r.result, env);
    FinallyHookCounts(r.result, env);
    FinallyHasNoStartEvents(r.result, env);
    FinallyResult(r.result, env);
  }

  /** The start hooks and the execute call all completed. */
  predicate StartsCleanly(env: Env) {
    !StopRequested(env) && env.jobStartExtension.Completes? && env.startListeners.Completes?
  }

  /** The `finally` block never calls `execute`. */
  lemma FinallyExecutesNothing(result: Nullable<Result>, env: Env)
    ensures Count(FinallyBlock(result, env).trace, IsExecute) == 0
  {
    var f := FinallyBlock(result, env).trace;
    FinallyTraceShape(result, env);
    forall i | 0 <= i < |f|
      ensures !IsExecute(f[i])
    {
      assert i == 0 || IsFinishHook(f[i]) || f[i] == JobSetFinished;
    }
    CountNone(f, IsExecute);
  }

  /**
   * Normal path: the JobStart extension point, then the start listeners,
   * then exactly one `execute(entryNr + 1, result)`.
   */
  lemma NormalPathOrder(r: Runner, env: Env)
    requires StartsCleanly(env)
    ensures var o := Run(r, env);
      && o.trace[..3] == [JobStartExtension, StartListeners, Execute(Wrap(r.entryNr + 1), r.result)]
      && Count(o.trace, IsExecute) == 1
    ensures r.entryNr < MAX_INT ==> Run(r, env).trace[2].nr == r.entryNr + 1
  {
    var t := TryBlock(r, env);
    var f := FinallyBlock(t.result, env);
    var o := Run(r, env);
    assert o.trace == t.trace + f.trace;
    FinallyExecutesNothing(t.result, env);
    CountAppend(t.trace, f.trace, IsExecute);
    var head := [JobStartExtension, StartListeners];
    var call := [Execute(Wrap(r.entryNr + 1), r.result)];
    assert t.trace == head + call;
    CountAppend(head, call, IsExecute);
    CountNone(head, IsExecute);
    assert call[1..] == [];
  }

  /**
   * What `execute` returns is handed to the job and stays the runner's
   * result unless a finish hook fails afterwards; the runner then reaches
   * `finished`. A `null` from `execute` is handed over too, and then a
   * failing finish hook makes a `NullPointerException` escape and leaves
   * `finished` as it was.
   */
  lemma ExecuteResultIsHandedOver(r: Runner, env: Env)
    requires StartsCleanly(env) && env.execute.Returns?
    ensures var o := Run(r, env);
      && o.trace[3] == JobSetResult(env.execute.result)
      && (FirstThrow(FinishSteps(env)) == 3 ==> o.runner.result == env.execute.result)
      && (env.execute.result.NonNull? || FirstThrow(FinishSteps(env)) == 3 ==> o.runner.finished && o.escaped == Null)
      && (env.execute.result.Null? && FirstThrow(FinishSteps(env)) < 3 ==>
            o.escaped == NonNull(NullPointerException) && o.runner.finished == r.finished)
  {
    FinallyTraceShape(env.execute.result, env);
  }

  /** The exception, if any, raised first among the start hooks and `execute`. */
  function FirstPreStepThrow(env: Env): Nullable<Thrown> {
    if env.jobStartExtension.Throws? then NonNull(env.jobStartExtension.thrown)
    else if env.startListeners.Throws? then NonNull(env.startListeners.thrown)
    else if env.execute.ExecuteThrows? then NonNull(env.execute.thrown)
    else Null
  }

  /**
   * A `KettleException` from the start hooks or from `execute` is caught:
   * with a result, the result handed to the job has success false and error
   * count set to exactly 1 -- whatever count it had -- and the runner
   * reaches `finished`. With a `null` result the handler's own call throws a
   * `NullPointerException`, which escapes after the `finally` block.
   */
  lemma KettleExceptionBecomesFailure(r: Runner, env: Env)
    requires !StopRequested(env)
    requires FirstPreStepThrow(env) == NonNull(KettleException)
    ensures var o := Run(r, env);
      r.result.NonNull? ==>
        && o.escaped == Null
        && o.runner.finished
        && JobSetResult(NonNull(MarkFailed(r.result.value))) in o.trace
        && o.runner.result.NonNull?
        && !o.runner.result.value.success
        && o.runner.result.value.nrErrors == 1
        && o.runner.result.value.payload == r.result.value.payload
    ensures var o := Run(r, env);
      r.result.Null? ==>
        && o.escaped == NonNull(NullPointerException)
        && o.runner.finished == r.finished
        && JobSetResult(Null) in o.trace
  {
    var t := TryBlock(r, env);
    FinallyTraceShape(t.result, env);
    assert Run(r, env).trace[|t.trace|] == JobSetResult(t.result);
  }

  /**
   * Any other exception from the start hooks or `execute` escapes `run()`
   * after the `finally` block: no handler marks the result failed for it, so
   * the job gets the result unchanged unless a finish hook fails, and
   * `finished` keeps the value it had. The exception that escapes is the
   * original one unless a finish hook failed with a `null` result, whose
   * handler's `NullPointerException` replaces it.
   */
  lemma OtherExceptionEscapes(r: Runner, env: Env)
    requires !StopRequested(env)
    requires FirstPreStepThrow(env).NonNull? && FirstPreStepThrow(env).value != KettleException
    ensures var o := Run(r, env);
      && o.escaped.NonNull?
      && o.runner.finished == r.finished
      && JobSetResult(r.result) in o.trace
    ensures var o := Run(r, env);
      r.result.NonNull? || FirstThrow(FinishSteps(env)) == 3 ==>
        o.escaped == FirstPreStepThrow(env) && o.trace[|o.trace| - 1] == JobSetFinished
    ensures var o := Run(r, env);
      r.result.Null? && FirstThrow(FinishSteps(env)) < 3 ==> o.escaped == NonNull(NullPointerException)
    ensures var o := Run(r, env);
      && o.jobResult == o.runner.result
      && (r.result.Null? ==> o.runner.result == Null)
      && (r.result.NonNull? ==>
            o.runner.result == (if FirstThrow(FinishSteps(env)) == 3 then r.result else NonNull(MarkFailed(r.result.value))))
  {
    var t := TryBlock(r, env);
    FinallyTraceShape(t.result, env);
    assert Run(r, env).trace[|t.trace|] == JobSetResult(r.result);
  }

  /**
   * The first finish step that throws (any exception) stops the remaining
   * ones. With a result handed over, the failure is contained: the result
   * becomes a failure with error count 1, nothing new propagates, the job is
   * still marked finished, and `finished` is set exactly when the `try` was
   * left normally (or was already set). With a `null` result the handler
   * throws, `setFinished` is skipped and `finished` keeps its value.
   */
  lemma FinishFailureIsContained(r: Runner, env: Env)
    requires FirstThrow(FinishSteps(env)) < 3
    ensures var o := Run(r, env);
      var k := FirstThrow(FinishSteps(env));
      var t := TryBlock(r, env);
      t.result.NonNull? ==>
        && o.trace == t.trace + [JobSetResult(t.result)] + FINISH_EVENTS[..k + 1] + [JobSetFinished]
        && o.runner.result == NonNull(MarkFailed(t.result.value))
        && o.jobResult == o.runner.result
        && (o.escaped.NonNull? <==> t.exit.Propagating?)
        && (o.runner.finished <==> r.finished || t.exit.Completed?)
    ensures var o := Run(r, env);
      var k := FirstThrow(FinishSteps(env));
      var t := TryBlock(r, env);
      t.result.Null? ==>
        && o.trace == t.trace + [JobSetResult(Null)] + FINISH_EVENTS[..k + 1]
        && o.escaped == NonNull(NullPointerException)
        && o.runner.finished == r.finished
  {
  }

  /** The runner's result is never `null` at any point of the run. */
  predicate NeverNull(r: Runner, env: Env) {
    r.result.NonNull? && (env.execute.Returns? ==> env.execute.result.NonNull?)
  }

  /**
   * `finished` becomes (or stays) true exactly when it already was, or the
   * run neither took the early return nor let an exception escape. A
   * `KettleException` never escapes. While the result is never `null`, only
   * a non-Kettle exception from the start hooks or `execute` escapes.
   */
  lemma FinishedExactlyWhenNotStoppedAndNothingEscaped(r: Runner, env: Env)
    ensures var o := Run(r, env);
      && (o.runner.finished <==> r.finished || (!StopRequested(env) && o.escaped == Null))
      && (o.escaped.NonNull? ==> o.escaped.value != KettleException)
    ensures NeverNull(r, env) ==>
      (Run(r, env).escaped.NonNull? <==>
        !StopRequested(env) && FirstPreStepThrow(env).NonNull? && FirstPreStepThrow(env).value != KettleException)
  {
  }

  // ---------------------------------------------------------------------
  // waitUntilFinished
  // ---------------------------------------------------------------------

  /** What one iteration of the polling loop sees. */
  datatype Poll = Poll(finished: bool, jobStopped: bool, parentStopped: bool)

  /** Exit condition of `waitUntilFinished`: the runner finished or the job itself stopped. */
  predicate Releases(p: Poll) {
    p.finished || p.jobStopped
  }

  /**
   * The polling loop over a finite run of observations: the index of the
   * first observation that releases the caller, or `Null` when none does
   * (the Java loop would still be spinning).
   */
  method WaitUntilFinished(polls: seq<Poll>) returns (released: Nullable<nat>)
    ensures released.NonNull? ==>
      && released.value < |polls|
      && (polls[released.value].finished || polls[released.value].jobStopped)
      && forall j :: 0 <= j < released.value ==> !polls[j].finished && !polls[j].jobStopped
    ensures released.Null? ==> forall j :: 0 <= j < |polls| ==> !polls[j].finished && !polls[j].jobStopped
  {
    var i := 0;
    while i < |polls| && !Releases(polls[i])
      invariant 0 <= i <= |polls|
      invariant forall j :: 0 <= j < i ==> !Releases(polls[j])
    {
      i := i + 1;
    }
    if i < |polls| {
      released := NonNull(i);
    } else {
      released := Null;
    }
  }

  /**
   * A stopped parent alone neither finishes the runner nor releases a
   * waiter on a runner not yet finished: `run()` returns early without
   * touching `finished`, and the wait loop looks only at `finished` and the
   * job's own stop flag.
   */
  lemma ParentStopAloneDoesNotRelease(r: Runner, env: Env, parentStopped: bool)
    requires !env.jobStopped && env.parentJob == NonNull(ParentJob(true))
    ensures Run(r, env).runner.finished == r.finished
    ensures !r.finished ==> !Releases(Poll(Run(r, env).runner.finished, env.jobStopped, parentStopped))
  {
  }
}

=== FILE: meta_file_cache.dfy ===
/**
 * The cache of loaded job and transformation definitions: a map from a
 * normalized file key (the key with `.kjb` or `.ktr` appended unless it
 * already ends so) to an entry holding a copy of the definition and a
 * counter of how often it was served.
 *
 * The map is modelled sequentially and functionally: every operation takes
 * the cache and returns the new one. The stored copy of a definition is the
 * definition value itself (a clone is equal to its original).
 */
module MetaFileCache {
  import opened JavaLang

  const KTR: string := ".ktr"
  const KJB: string := ".kjb"

  datatype MetaKind = JobMeta | TransMeta

  /** A job or transformation definition; its content is opaque here. */
  datatype Meta = Meta(kind: MetaKind, content: nat)

  /** An entry: its own copy of the key (normalized again), the definition, and the use counter. */
  datatype Entry = Entry(key: string, meta: Meta, timesUsed: Int32)

  type Cache = map<string, Entry>

  /** What a lookup produces: the definition, `null`, or a failed downcast. */
  datatype Lookup = Found(meta: Meta) | Missing | CastFails

  function Suffix(kind: MetaKind): string {
    if kind == JobMeta then KJB else KTR
  }

  // ---------------------------------------------------------------------
  // Key normalization
  // ---------------------------------------------------------------------

  /** The key as the cache stores it: the kind's suffix is appended unless the key already ends with it. */
  function Normalize(key: string, kind: MetaKind): (k: string)
    ensures EndsWith(k, Suffix(kind))
    ensures StartsWith(k, key)
    ensures |k| <= |key| + |Suffix(kind)|
    ensures EndsWith(key, Suffix(kind)) ==> k == key
  {
    if EndsWith(key, Suffix(kind)) then key
    else
      EndsWithAppend(key, Suffix(kind));
      StartsWithAppend(key, Suffix(kind));
      key + Suffix(kind)
  }

  lemma NormalizeIdempotent(key: string, kind: MetaKind)
    ensures Normalize(Normalize(key, kind), kind) == Normalize(key, kind)
  {
  }

  /**
   * A key and the same key with the suffix spelled out normalize alike
   * exactly when the key does not already end with the suffix (`a.kjb` and
   * `a.kjb.kjb` are different keys).
   */
  lemma NormalizeSuffixedKey(key: string, kind: MetaKind)
    ensures Normalize(key + Suffix(kind), kind) == Normalize(key, kind) <==> !EndsWith(key, Suffix(kind))
  {
    EndsWithAppend(key, Suffix(kind));
    if EndsWith(key, Suffix(kind)) {
      assert |Normalize(key + Suffix(kind), kind)| == |key| + 4;
    }
  }

  /** A normalized job key is never a normalized transformation key. */
  lemma JobAndTransKeysDisjoint(jobKey: string, transKey: string)
    ensures Normalize(jobKey, JobMeta) != Normalize(transKey, TransMeta)
  {
  }

  // ---------------------------------------------------------------------
  // The cache
  // ---------------------------------------------------------------------

  /**
   * Every entry is stored under its own key, and that key carries the
   * suffix of the entry's kind.
   */
  predicate Valid(c: Cache) {
    forall k :: k in c ==> c[k].key == k && EndsWith(k, Suffix(c[k].meta.kind))
  }

  /** The entry constructor: picks the suffix from the definition's kind; counter at 0. */
  function NewEntry(key: string, meta: Meta): (e: Entry)
    ensures e.key == Normalize(key, meta.kind)
    ensures e.meta == meta
    ensures e.timesUsed == 0
  {
    Entry(Normalize(key, meta.kind), meta, 0)
  }

  /** `cacheMeta(key, meta)`: stores a fresh entry under the normalized key, replacing any old one. */
  function CacheMeta(c: Cache, key: string, meta: Meta): (c': Cache)
    ensures c'.Keys == c.Keys + {Normalize(key, meta.kind)}
    ensures c'[Normalize(key, meta.kind)].meta == meta
    ensures c'[Normalize(key, meta.kind)].timesUsed == 0
    ensures forall k :: k in c && k != Normalize(key, meta.kind) ==> c'[k] == c[k]
    ensures Valid(c) ==> Valid(c')
  {
    c[Normalize(key, meta.kind) := NewEntry(key, meta)]
  }

  /**
   * `getCachedJobMeta(key)` / `getCachedTransMeta(key)`: `getMeta()` bumps
   * the entry's counter (Java `int`), then the value is downcast to the
   * requested kind.
   */
  function GetCached(c: Cache, key: string, kind: MetaKind): (res: (Cache, Lookup))
    ensures Normalize(key, kind) !in c <==> res.1 == Missing
    ensures res.1 == Missing ==> res.0 == c
    ensures Normalize(key, kind) in c ==>
      var nk := Normalize(key, kind);
      && res.0.Keys == c.Keys
      && res.0[nk] == c[nk].(timesUsed := Increment(c[nk].timesUsed))
      && (forall k :: k in c && k != nk ==> res.0[k] == c[k])
    ensures Valid(c) ==> Valid(res.0) && res.1 != CastFails
    ensures Valid(c) && res.1.Found? ==> res.1.meta.kind == kind && res.1.meta == c[Normalize(key, kind)].meta
  {
    var nk := Normalize(key, kind);
    if nk !in c then (c, Missing)
    else
      var e := c[nk];
      var c' := c[nk := e.(timesUsed := Increment(e.timesUsed))];
      if e.meta.kind == kind then (c', Found(e.meta)) else (c', CastFails)
  }

  /**
   * After `cacheMeta(key, m)` a lookup of the same kind with `key` finds
   * `m`, counted once; so does a lookup with `key` plus the suffix when
   * `key` did not already carry it.
   */
  lemma CachedDefinitionIsFound(c: Cache, key: string, meta: Meta)
    requires Valid(c)
    ensures var c1 := CacheMeta(c, key, meta);
      var (c2, r) := GetCached(c1, key, meta.kind);
      && r == Found(meta)
      && c2[Normalize(key, meta.kind)].timesUsed == 1
    ensures !EndsWith(key, Suffix(meta.kind)) ==>
      GetCached(CacheMeta(c, key, meta), key + Suffix(meta.kind), meta.kind).1 == Found(meta)
  {
    NormalizeSuffixedKey(key, meta.kind);
  }

  /** Caching again under the same normalized key resets the counter and replaces the definition. */
  lemma RecacheResetsCounter(c: Cache, key: string, meta: Meta, key2: string, meta2: Meta)
    requires Normalize(key2, meta2.kind) == Normalize(key, meta.kind)
    ensures var c1 := GetCached(CacheMeta(c, key, meta), key, meta.kind).0;
      var c2 := CacheMeta(c1, key2, meta2);
      && c2[Normalize(key, meta.kind)].timesUsed == 0
      && c2[Normalize(key, meta.kind)].meta == meta2
      && c2.Keys == c1.Keys
  {
  }

  /**
   * A job lookup never yields a transformation and a transformation lookup
   * never yields a job, even when both were cached under the same key.
   */
  lemma NoCrossKindLookup(c: Cache, key: string, jobDef: Meta, transDef: Meta)
    requires Valid(c)
    requires jobDef.kind == JobMeta && transDef.kind == TransMeta
    ensures var c1 := CacheMeta(CacheMeta(c, key, jobDef), key, transDef);
      && GetCached(c1, key, JobMeta).1 == Found(jobDef)
      && GetCached(c1, key, TransMeta).1 == Found(transDef)
  {
    JobAndTransKeysDisjoint(key, key);
  }

  /** `n` successive lookups of the same key. */
  function LookupTimes(c: Cache, key: string, kind: MetaKind, n: nat): Cache
    decreases n
  {
    if n == 0 then c else LookupTimes(GetCached(c, key, kind).0, key, kind, n - 1)
  }

  /**
   * `n` lookups of a present key count `n` uses of that entry (while the
   * counter stays within `int`) and touch no other entry.
   */
  lemma {:induction false} LookupsAreCounted(c: Cache, key: string, kind: MetaKind, n: nat)
    requires Normalize(key, kind) in c
    requires c[Normalize(key, kind)].timesUsed as int + n <= MAX_INT
    ensures var c' := LookupTimes(c, key, kind, n);
      var nk := Normalize(key, kind);
      && c'.Keys == c.Keys
      && c'[nk] == c[nk].(timesUsed := c[nk].timesUsed + n)
      && (forall k :: k in c && k != nk ==> c'[k] == c[k])
    decreases n
  {
    if n > 0 {
      var c1 := GetCached(c, key, kind).0;
      LookupsAreCounted(c1, key, kind, n - 1);
    }
  }

  // ---------------------------------------------------------------------
  // logCacheSummary
  // ---------------------------------------------------------------------

  const SUMMARY_HEADER: string := "MetaFileCache Loading Summary"

  function SummaryLine(e: Entry): string {
    e.key + " was loaded " + IntToString(e.timesUsed) + " times from the cache."
  }

  predicate Distinct(s: seq<string>) {
    forall i, j :: 0 <= i < j < |s| ==> s[i] != s[j]
  }

  /**
   * `logCacheSummary`: nothing for an empty cache, otherwise a header
   * followed by one line per entry. The map iterates in an unspecified
   * order; `order` is the order it chose, visiting each key once.
   */
  method LogCacheSummary(c: Cache) returns (lines: seq<string>, order: seq<string>)
    ensures |c| == 0 ==> lines == []
    ensures |c| > 0 ==> |lines| == |c| + 1 && lines[0] == SUMMARY_HEADER
    ensures |order| == |c| && Distinct(order)
    ensures forall k :: k in c <==> k in order
    ensures |c| > 0 ==> forall i :: 0 <= i < |order| ==> order[i] in c && lines[i + 1] == SummaryLine(c[order[i]])
  {
    lines := [];
    order := [];
    var remaining := c.Keys;
    while remaining != {}
      invariant remaining <= c.Keys
      invariant forall k :: k in order <==> k in c && k !in remaining
      invariant Distinct(order)
      invariant |order| + |remaining| == |c.Keys|
      invariant |order| == 0 ==> lines == []
      invariant |order| > 0 ==> |lines| == |order| + 1 && lines[0] == SUMMARY_HEADER
      invariant |order| > 0 ==> forall i :: 0 <= i < |order| ==> order[i] in c && lines[i + 1] == SummaryLine(c[order[i]])
      decreases |remaining|
    {
      var k :| k in remaining;
      if |order| == 0 {
        lines := lines + [SUMMARY_HEADER];
      }
      lines := lines + [SummaryLine(c[k])];
      order := order + [k];
      remaining := remaining - {k};
    }
    assert |c| == |c.Keys|;
  }
}

=== FILE: poi_cell.dfy ===
/**
 * An Excel cell as the spreadsheet input step sees it: the POI cell type,
 * the cached result type of a formula and the date-format test decide the
 * engine's cell type; the cell type decides which POI accessor is read and
 * so what kind of value comes back.
 *
 * The POI cell is an abstract record: what its accessors return (or that
 * they throw) is part of the input. Numbers are kept as opaque reals and
 * their text form, like that of dates, is a rendering function supplied by
 * the caller.
 */
module PoiCell {
  import opened JavaLang

  /** POI's cell types. */
  datatype CellType = PoiNone | PoiNumeric | PoiString | PoiFormula | PoiBlank | PoiBoolean | PoiError

  /** The engine's cell types. */
  datatype KCellType =
    | Empty | Boolean | BooleanFormula | Date | DateFormula | Label | Number | NumberFormula | StringFormula

  /** What one accessor of the POI cell does. */
  datatype Access<T> = Yields(value: T) | AccessThrows

  datatype Cell = Cell(
    cellType: CellType,
    cachedFormulaResultType: CellType,
    dateFormatted: bool,          // the date-format test on the cell
    booleanValue: Access<bool>,
    dateMillis: Access<int>,      // milliseconds since the epoch of the date value
    tzOffset: int,                // the default time zone's offset at that instant
    numericValue: Access<real>,
    stringValue: Access<string>,
    columnIndex: int,
    rowIndex: int)

  /** The Java object `getValue` returns when it is not `null`. */
  datatype Value = BooleanValue(b: bool) | DateValue(millis: int) | NumberValue(n: real) | StringValue(s: string)

  /** Why a read failed: the unmapped type, an accessor, or a wrapping `RuntimeException`. */
  datatype Failure = NullTypeSwitch | AccessorThrew | Wrapped(message: string, cause: Failure)

  datatype Read<T> = Ok(value: T) | Fails(failure: Failure)

  // ---------------------------------------------------------------------
  // getType
  // ---------------------------------------------------------------------

  /** `getType`: the engine cell type, or `null` for a combination it does not map. */
  function GetType(c: Cell): (r: Nullable<KCellType>)
    ensures r == NonNull(Boolean) <==> c.cellType == PoiBoolean
    ensures r == NonNull(Label) <==> c.cellType == PoiString
    ensures r == NonNull(Date) <==> c.cellType == PoiNumeric && c.dateFormatted
    ensures r == NonNull(Number) <==> c.cellType == PoiNumeric && !c.dateFormatted
    ensures r == NonNull(Empty) <==>
      c.cellType == PoiBlank || c.cellType == PoiError
      || (c.cellType == PoiFormula && c.cachedFormulaResultType == PoiError)
    ensures r == NonNull(BooleanFormula) <==> c.cellType == PoiFormula && c.cachedFormulaResultType == PoiBoolean
    ensures r == NonNull(StringFormula) <==> c.cellType == PoiFormula && c.cachedFormulaResultType == PoiString
    ensures r == NonNull(DateFormula) <==>
      c.cellType == PoiFormula && c.cachedFormulaResultType == PoiNumeric && c.dateFormatted
    ensures r == NonNull(NumberFormula) <==>
      c.cellType == PoiFormula && c.cachedFormulaResultType == PoiNumeric && !c.dateFormatted
    ensures r == Null <==>
      c.cellType == PoiNone
      || (c.cellType == PoiFormula && c.cachedFormulaResultType in {PoiNone, PoiFormula, PoiBlank})
  {
    match c.cellType
    case PoiBoolean => NonNull(Boolean)
    case PoiNumeric => if c.dateFormatted then NonNull(Date) else NonNull(Number)
    case PoiString => NonNull(Label)
    case PoiBlank => NonNull(Empty)
    case PoiError => NonNull(Empty)
    case PoiFormula =>
      (match c.cachedFormulaResultType
       case PoiError => NonNull(Empty)
       case PoiBoolean => NonNull(BooleanFormula)
       case PoiString => NonNull(StringFormula)
       case PoiNumeric => if c.dateFormatted then NonNull(DateFormula) else NonNull(NumberFormula)
       case _ => Null)
    case PoiNone => Null
  }

  // ---------------------------------------------------------------------
  // getValue
  // ---------------------------------------------------------------------

  /** The message of the exception `getValue` wraps its failures in. */
  function ValueFailureMessage(c: Cell): string {
    "Unable to get value of cell (" + IntToString(c.columnIndex) + ", " + IntToString(c.rowIndex) + ")"
  }

  /** The message of the exception `getContents` wraps its failures in. */
  function ContentsFailureMessage(c: Cell): string {
    "Unable to get string content of cell (" + IntToString(c.columnIndex) + ", " + IntToString(c.rowIndex) + ")"
  }

  predicate IsBooleanType(t: KCellType) { t == Boolean || t == BooleanFormula }
  predicate IsDateType(t: KCellType) { t == Date || t == DateFormula }
  predicate IsNumberType(t: KCellType) { t == Number || t == NumberFormula }
  predicate IsStringType(t: KCellType) { t == Label || t == StringFormula }

  /** The accessor `getValue` reads for a cell of type `t` throws. */
  predicate AccessorThrowsFor(c: Cell, t: KCellType) {
    || (IsBooleanType(t) && c.booleanValue.AccessThrows?)
    || (IsDateType(t) && c.dateMillis.AccessThrows?)
    || (IsNumberType(t) && c.numericValue.AccessThrows?)
    || (IsStringType(t) && c.stringValue.AccessThrows?)
  }

  /** The value `getValue` builds for a type, given that its accessor yields. */
  function ValueOfType(c: Cell, t: KCellType): Read<Nullable<Value>> {
    match t
    case Boolean => ReadAccess(c, c.booleanValue, b => BooleanValue(b))
    case BooleanFormula => ReadAccess(c, c.booleanValue, b => BooleanValue(b))
    case Date => ReadAccess(c, c.dateMillis, time => DateValue(time + c.tzOffset))
    case DateFormula => ReadAccess(c, c.dateMillis, time => DateValue(time + c.tzOffset))
    case Number => ReadAccess(c, c.numericValue, n => NumberValue(n))
    case NumberFormula => ReadAccess(c, c.numericValue, n => NumberValue(n))
    case Label => ReadAccess(c, c.stringValue, s => StringValue(s))
    case StringFormula => ReadAccess(c, c.stringValue, s => StringValue(s))
    case Empty => Ok(Null)
  }

  function ReadAccess<T>(c: Cell, a: Access<T>, box: T -> Value): Read<Nullable<Value>> {
    match a
    case Yields(x) => Ok(NonNull(box(x)))
    case AccessThrows => Fails(Wrapped(ValueFailureMessage(c), AccessorThrew))
  }

  /**
   * `getValue`: the value kind follows the cell type, an empty cell gives
   * `null`, and an unmapped type fails -- the switch on a `null` type throws
   * inside the `try` and comes out wrapped -- rather than giving `null`.
   */
  function GetValue(c: Cell): (r: Read<Nullable<Value>>)
    ensures r == Ok(Null) <==> GetType(c) == NonNull(Empty)
    ensures GetType(c) == Null ==> r == Fails(Wrapped(ValueFailureMessage(c), NullTypeSwitch))
    ensures r.Fails? <==> GetType(c) == Null || AccessorThrowsFor(c, GetType(c).value)
    ensures r.Fails? ==> r.failure.Wrapped? && r.failure.message == ValueFailureMessage(c)
    ensures r.Ok? && r.value.NonNull? ==>
      var t := GetType(c).value;
      match r.value.value
      case BooleanValue(b) => IsBooleanType(t) && c.booleanValue == Yields(b)
      case DateValue(m) => IsDateType(t) && c.dateMillis.Yields? && m == c.dateMillis.value + c.tzOffset
      case NumberValue(n) => IsNumberType(t) && c.numericValue == Yields(n)
      case StringValue(s) => IsStringType(t) && c.stringValue == Yields(s)
  {
    match GetType(c)
    case Null => Fails(Wrapped(ValueFailureMessage(c), NullTypeSwitch))
    case NonNull(t) => ValueOfType(c, t)
  }

  // ---------------------------------------------------------------------
  // getContents
  // ---------------------------------------------------------------------

  /** `toString()` of the value object. */
  function ValueText(v: Value, renderNumber: real -> string, renderDate: int -> string): string {
    match v
    case BooleanValue(b) => if b then "true" else "false"
    case DateValue(m) => renderDate(m)
    case NumberValue(n) => renderNumber(n)
    case StringValue(s) => s
  }

  /**
   * `getContents`: `null` exactly when `getValue` gives `null`, otherwise the
   * value's text; a failure of `getValue` is wrapped a second time.
   */
  function GetContents(c: Cell, renderNumber: real -> string, renderDate: int -> string): (r: Read<Nullable<string>>)
    ensures r == Ok(Null) <==> GetValue(c) == Ok(Null)
    ensures r.Fails? <==> GetValue(c).Fails?
    ensures r.Fails? ==> r.failure == Wrapped(ContentsFailureMessage(c), GetValue(c).failure)
    ensures GetValue(c).Ok? && GetValue(c).value.NonNull? ==>
      r == Ok(NonNull(ValueText(GetValue(c).value.value, renderNumber, renderDate)))
  {
    match GetValue(c)
    case Fails(e) => Fails(Wrapped(ContentsFailureMessage(c), e))
    case Ok(Null) => Ok(Null)
    case Ok(NonNull(v)) => Ok(NonNull(ValueText(v, renderNumber, renderDate)))
  }

  /** A text cell's contents are its string, whatever the renderers. */
  lemma TextCellContentsAreItsString(c: Cell, renderNumber: real -> string, renderDate: int -> string)
    requires c.cellType == PoiString || (c.cellType == PoiFormula && c.cachedFormulaResultType == PoiString)
    requires c.stringValue.Yields?
    ensures GetContents(c, renderNumber, renderDate) == Ok(NonNull(c.stringValue.value))
  {
  }

  /**
   * A formula whose cached result is blank has no engine type, so reading
   * it fails twice over instead of giving an empty value.
   */
  lemma BlankFormulaFailsToRead(c: Cell, renderNumber: real -> string, renderDate: int -> string)
    requires c.cellType == PoiFormula && c.cachedFormulaResultType == PoiBlank
    ensures GetType(c) == Null
    ensures GetValue(c) == Fails(Wrapped(ValueFailureMessage(c), NullTypeSwitch))
    ensures GetContents(c, renderNumber, renderDate)
         == Fails(Wrapped(ContentsFailureMessage(c), Wrapped(ValueFailureMessage(c), NullTypeSwitch)))
  {
  }
}
